=== FILE: README.md ===
# Text-to-sign resolution pipeline, modelled in Dafny

This project models two parts of the sign-language translator backend.

- **The text-to-sign pipeline** of the sign service (`sign_service.py`):
  - `clean_token` normalises the input text;
  - the text is split into tokens;
  - `max_phrase_match` matches the longest supported phrase of up to three tokens;
  - `try_whole_token` looks up whole words;
  - `try_spell_word` spells a word, with `letter_token` preferring single-handed letters and digits falling back to the local zero clip;
  - the cursor loop of `process_text_to_clips` builds three lists: the clip paths with pauses, the translated labels and the skipped words;
  - `text_to_sign_video` shapes the result record.
- **The vocabulary tool** (`Debug/check_vocab.py`):
  - `norm` strips, lower-cases and collapses whitespace runs;
  - the collection loop walks the parsed dictionary mapping;
  - the collected English strings are sorted.

The sign library, the file system and the video composer are parameters, not code.

- The sign library and the file system are an `Env` value:
  - `lookup` gives the clip paths for a text;
  - `usePause` / `zeroExists` say whether `Pause.mp4` / `0.mp4` exist;
  - `pausePath` / `zeroPath` are their paths.
- The composer is a function from a path list to `Composed(path)` or `Crashed(message)`.
- The vocabulary is a `set<string>`.

Modules, one per file:

| file | module | contents |
|---|---|---|
| `wrappers.dfy` | `Wrappers` | `Option` and `Result`. `Result` is usable with `:-`, which passes on the first failure the way an uncaught exception does. |
| `chars.dfy` | `Chars` | ASCII character classes, matching Python's `str.isspace`, `\s`, `\w`, `isdigit` and `lower` on ASCII. |
| `strings.dfy` | `Strings` | `strip`, `lower`, `split`, `join`, character filtering and whitespace-run collapsing. |
| `clean_token.dfy` | `SignText` | `clean_token` and tokenisation. |
| `sign_library.dfy` | `SignLibrary` | the asset tiers and spelling. |
| `phrase_match.dfy` | `PhraseMatch` | Python slicing and `max_phrase_match`. |
| `pipeline.dfy` | `Plan` | the cursor loop stated functionally (one `Step` per loop turn, `Units` for the whole walk) and the three accumulated lists. |
| `plan_props.dfy` | `PlanProps` | properties of the plan. |
| `service.dfy` | `SignService` | the loop as the source writes it, and the result record. |
| `vocab_norm.dfy` | `VocabNorm` | `norm`. |
| `vocab_collect.dfy` | `VocabCollect` | the JSON values and the collection loop, with Python's exceptions as `Crash`. |
| `vocab_list.dfy` | `VocabList` | Python string order and the sorted list. |

The loop method `SignService.Accumulate` keeps the source's structure: a cursor `i` and three accumulators. `SignService.WalkTokens` runs it and then removes the trailing pause. Two methods hold one turn of the loop:

- `Turn` is the phrase branch;
- `ResolveWord` covers the multi-digit, whole-word, spelling and skip branches.

Each is proved equal to the functional `Step` / `WordStep`.

The model follows the code at these points, where its behaviour is easy to misread:

- A pause follows every resolved unit, spelled words included, not only whole-word and whole-phrase units. The last pause is then removed (`PlanProps.PlanPathsPaused`).
- A spelled word's translated label is its characters joined with `+`, not its surface text (`SignLibrary.PlusLabel`).
- A supported phrase whose lookup yields no clips falls through to single-word handling of the token under the cursor (`PlanProps.PhraseFallsThrough`).
- The size returned by `max_phrase_match` can exceed the tokens that remain. This is harmless: it only happens on the last match (`PhraseMatch.PhraseOvershoot`).
- The "nothing to translate" failure is decided on an empty path list, not on an empty label list. The two are proved equivalent (`PlanProps.PlanEmptyIffNothingResolved`).
- A multi-digit number is spelled digit by digit only in the single-word branch. If the number is itself in the vocabulary, the phrase branch runs first and finds it whole, so it is not spelled (`PlanProps.MultiDigitPhraseExample`).

## Model

| member | source | states |
|---|---|---|
| Strings.Strip | backend/Ahmad-Library/sign_service.py:33 | `strip()` leaves no edge whitespace, keeps only characters of the input, is empty exactly when the input is all whitespace, and changes nothing on an already stripped string |
| Strings.StripMiddle | backend/Ahmad-Library/sign_service.py:33 | `strip()` removes a whitespace prefix and a whitespace suffix and nothing else: the input is that prefix, then the result, then that suffix |
| Strings.FilterStrip | backend/Ahmad-Library/sign_service.py:33-34 | stripping before or after deleting characters loses nothing that a non-whitespace test keeps |
| Strings.LowerStr | backend/Ahmad-Library/sign_service.py:33 | `lower()` keeps the length, lower-cases each character in place, and yields a lower-case string |
| Strings.Split | backend/Ahmad-Library/sign_service.py:151 | every piece `split()` yields is non-empty and whitespace-free, and made of characters of the input |
| Strings.SplitJoin | backend/Ahmad-Library/sign_service.py:151 | `split()` undoes a single-space join of non-empty, whitespace-free words |
| SignText.CleanToken | backend/Ahmad-Library/sign_service.py:31-35 | `clean_token` yields a lower-case string of word, whitespace and `-` characters only, with no edge whitespace, no longer than its input; it returns its input exactly when the input already has that shape; it keeps every letter, digit and `_` of the lower-cased input, in order |
| SignText.CleanKeepsKeptNonSpace | backend/Ahmad-Library/sign_service.py:33-35 | `clean_token` keeps every non-whitespace character the regex keeps, that is every letter, digit, `_` and `-` of the lower-cased input, in order |
| SignText.CleanTokenIdempotent | backend/Ahmad-Library/sign_service.py:31-35 | cleaning a cleaned token changes nothing |
| SignText.Tokenize | backend/Ahmad-Library/sign_service.py:150-151 | every token the loop walks is non-empty, whitespace-free, lower-case and made of kept characters |
| SignText.TokenizeKept | backend/Ahmad-Library/sign_service.py:150-151 | the tokens are the whitespace-separated pieces of the lower-cased text after the regex deletion, so inner whitespace survives cleaning as the token boundaries |
| SignText.TokenizeCollapses | backend/Ahmad-Library/sign_service.py:150-151 | the tokens, space-joined, are the cleaned text with every whitespace run replaced by one space |
| SignText.TokenizeJoin | backend/Ahmad-Library/sign_service.py:150-151 | any list of non-empty, whitespace-free, lower-case tokens of kept characters comes back from tokenising its space-join |
| SignLibrary.TryWholeToken | backend/Ahmad-Library/sign_service.py:80-90 | success exactly when the library has clips for the token, and then those clips |
| SignLibrary.LetterToken | backend/Ahmad-Library/sign_service.py:56-76 | the single-handed token whenever it has clips, the double-handed one only when the single-handed one has none, `None` exactly when neither has clips |
| SignLibrary.DigitClips | backend/Ahmad-Library/sign_service.py:101-114 | a digit's own clips when it has any; otherwise the local zero clip, for `0` only and only when that file exists; otherwise failure |
| SignLibrary.LetterClips | backend/Ahmad-Library/sign_service.py:117-128 | a letter's clips are the single-handed ones, else the double-handed ones; it fails exactly when neither has clips |
| SignLibrary.CharClips | backend/Ahmad-Library/sign_service.py:97-128 | a character outside `[a-z0-9]` has no clips; a digit gets exactly the digit lookup's clips (`DigitClips`) and a lower-case letter exactly the letter lookup's clips (`LetterClips`); a character with clips has at least one |
| SignLibrary.SpellWord | backend/Ahmad-Library/sign_service.py:93-130 | a spelled word has at least one clip per character |
| SignLibrary.SpellWordAllOrNothing | backend/Ahmad-Library/sign_service.py:93-130 | spelling fails exactly when some character has no clips, in particular when one lies outside `[a-z0-9]` |
| SignLibrary.SpellWordInOrder | backend/Ahmad-Library/sign_service.py:95-130 | a spelled word's clips are its characters' clips concatenated in order |
| SignLibrary.PlusLabel | backend/Ahmad-Library/sign_service.py:183 | `"+".join(word)` has length `2 * |word| - 1` for a non-empty word, room for one `+` between each pair of neighbouring characters, and is empty for the empty word |
| SignLibrary.PlusLabelShape | backend/Ahmad-Library/sign_service.py:183 | the label `"+".join(word)` has the word's characters at even positions and `+` between them |
| SignLibrary.PlusLabelRoundTrip | backend/Ahmad-Library/sign_service.py:207 | deleting the `+` signs from a spelled word's label gives the word back |
| PhraseMatch.Slice | backend/Ahmad-Library/sign_service.py:139 | Python's `tokens[i:j]` cuts bounds past the end down to the length |
| PhraseMatch.Candidate | backend/Ahmad-Library/sign_service.py:139 | the candidate phrase is empty when no token is taken, and otherwise starts with the token at `i` |
| PhraseMatch.CandidateSplits | backend/Ahmad-Library/sign_service.py:139 | when the tokens are non-empty words, splitting a candidate phrase gives back exactly the tokens it joins |
| PhraseMatch.MaxPhraseMatch | backend/Ahmad-Library/sign_service.py:133-143 | a match is a supported phrase equal to the join of 1 to 3 tokens from `i`, with that size; no match gives size 0 |
| PhraseMatch.MaxPhraseMatchIsFirst | backend/Ahmad-Library/sign_service.py:138-143 | longest first: no longer candidate is supported, and there is no match exactly when none of the three candidates is supported |
| PhraseMatch.PhraseOvershoot | backend/Ahmad-Library/sign_service.py:138-141 | a size running past the end of the tokens only comes with a phrase that is the join of all remaining tokens |
| PhraseMatch.OvershootExample | backend/Ahmad-Library/sign_service.py:138-141 | a lone supported token is reported with size 3 |
| PhraseMatch.LongestMatchExample | backend/Ahmad-Library/sign_service.py:138-141 | "bus stop" beats "bus" at the start of "bus stop near market" |
| PhraseMatch.MatchedPhraseNonEmpty | backend/Ahmad-Library/sign_service.py:162-164 | inside the loop a matched phrase is never empty, so `if phrase:` means "matched" |
| Plan.SpelledFromLibrary | backend/Ahmad-Library/sign_service.py:93-130 | every clip of a spelled word came from the library or is the zero clip |
| Plan.PhraseStep | backend/Ahmad-Library/sign_service.py:162-172 | when the phrase branch hits, it moves the cursor by at least one token and yields a whole match carrying the library's non-empty clips for its phrase |
| Plan.PhraseStepFacts | backend/Ahmad-Library/sign_service.py:162-172 | the phrase branch yields a whole match of the tokens it consumes, labelled by their join, which is supported and carries its clips; it yields nothing exactly when no phrase matched or the phrase has no clips |
| Plan.WordStep | backend/Ahmad-Library/sign_service.py:174-212 | the single-word branch accounts for exactly the word; a whole match is the word itself with the library's non-empty clips for it |
| Plan.WordStepFacts | backend/Ahmad-Library/sign_service.py:174-212 | the single-word branch accounts for the word alone; a whole match carries the word's clips and never happens for a multi-digit number; a skip means spelling failed and, for any other word, that the library had no clips; any word that is not a multi-digit number and has clips is matched whole, before spelling is tried |
| Plan.Step | backend/Ahmad-Library/sign_service.py:161-212 | every loop turn moves the cursor forward |
| Plan.StepFacts | backend/Ahmad-Library/sign_service.py:161-212 | a turn's unit accounts for exactly the tokens passed; only a supported phrase moves more than one token; whole matches carry the library's clips for their label; spelled and skipped units are the token under the cursor; resolved units carry clips; when the phrase branch misses, a token with clips that is not a multi-digit number is matched whole rather than spelled |
| Plan.StepCovers | backend/Ahmad-Library/sign_service.py:161-212 | a turn's unit accounts for exactly the tokens the cursor moves past |
| Plan.StepOnPhrase | backend/Ahmad-Library/sign_service.py:162-172 | when the phrase has clips, the turn is that phrase's whole match and moves by its size |
| Plan.StepOnWord | backend/Ahmad-Library/sign_service.py:162-174 | otherwise the turn is the single-word handling of the current token and moves by one |
| Plan.StepOk | backend/Ahmad-Library/sign_service.py:161-212 | every unit covers a token, and a resolved one carries clips from the library only |
| Plan.WalkCoverage | backend/Ahmad-Library/sign_service.py:160-212 | a walk whose turns each account for the tokens they pass accounts for every remaining token, in order |
| Plan.Units | backend/Ahmad-Library/sign_service.py:160-212 | the loop yields no more units than there are tokens left from the cursor |
| Plan.UnitsCoverage | backend/Ahmad-Library/sign_service.py:160-212 | the units of the loop account for the tokens exactly, in order, with no gap or overlap |
| Plan.UnitsOk | backend/Ahmad-Library/sign_service.py:160-212 | every unit of the loop satisfies `UnitOk` |
| Plan.Labels | backend/Ahmad-Library/sign_service.py:170-207 | `translated_labels` has at most one entry per unit, and is empty exactly when no unit has a clip group |
| Plan.Skips | backend/Ahmad-Library/sign_service.py:187-211 | `skipped` has at most one entry per unit |
| Plan.DropTrailingPause | backend/Ahmad-Library/sign_service.py:214-216 | the path list loses exactly its last entry, and only when pauses are in use and that entry is the pause; otherwise it is unchanged |
| Plan.PlanPaths | backend/Ahmad-Library/sign_service.py:157-216 | the returned paths are the accumulated list, or that list less one trailing pause when pauses are in use |
| Plan.AccumulatorsAppend | backend/Ahmad-Library/sign_service.py:167-211 | each turn extends the three lists by exactly what its unit contributes |
| PlanProps.SkipsAreSubsequence | backend/Ahmad-Library/sign_service.py:187-211 | the skipped words are an in-order subsequence of the tokens |
| PlanProps.ReportsPartitionUnits | backend/Ahmad-Library/sign_service.py:170-211 | each unit lands in exactly one of the translated or skipped lists, and there is one clip group per translated label |
| PlanProps.UnitsAtMostTokens | backend/Ahmad-Library/sign_service.py:160-212 | there are no more units than tokens |
| PlanProps.RawPathsPaused | backend/Ahmad-Library/sign_service.py:167-209 | with the pause clip present, the paths before removal are the groups joined by pauses plus one trailing pause |
| PlanProps.PlanPathsPaused | backend/Ahmad-Library/sign_service.py:214-216 | with the pause clip present, the returned paths have exactly one pause between neighbouring groups and none at the ends |
| PlanProps.PlanPathsUnpaused | backend/Ahmad-Library/sign_service.py:157-216 | without the pause clip, the groups are back to back |
| PlanProps.PauseAccounting | backend/Ahmad-Library/sign_service.py:157-216 | when library clips are never the pause file, the plan holds one pause fewer than the resolved units and never ends with a pause; without the pause clip there is none |
| PlanProps.PlanEmptyIffNothingResolved | backend/Ahmad-Library/sign_service.py:145-218 | the paths are empty exactly when no unit was resolved |
| PlanProps.MultiDigitNeverWhole | backend/Ahmad-Library/sign_service.py:176-189 | in the single-word branch a multi-digit number's outcome does not depend on its whole-token lookup; it is spelled (labelled with `+`) or skipped |
| PlanProps.MultiDigitPhraseExample | backend/Ahmad-Library/sign_service.py:162-172 | a multi-digit number that is in the vocabulary and has clips is matched whole by the phrase branch |
| PlanProps.PhraseFallsThrough | backend/Ahmad-Library/sign_service.py:164-174 | a supported phrase without clips falls through to the current token's single-word handling |
| SignService.ProcessTextToClips | backend/Ahmad-Library/sign_service.py:145-218 | the three lists are the plan of the units the walk yields, which cover the tokens; skips are a subsequence of the tokens; there are at most as many reports as tokens; paths are empty exactly when nothing was translated; paths are the groups joined by pauses or back to back |
| SignService.WalkTokens | backend/Ahmad-Library/sign_service.py:160-216 | after the loop and the trailing-pause removal, the three lists are the plan of the functional walk: clips with the trailing pause dropped, labels and skips |
| SignService.Accumulate | backend/Ahmad-Library/sign_service.py:160-212 | the cursor loop's accumulators end up holding the clips (a pause after every resolved unit when pauses are in use), labels and skips of the units of the functional walk |
| SignService.Turn | backend/Ahmad-Library/sign_service.py:161-212 | one loop turn adds the unit of `Step` to the lists and moves by `Step`'s size |
| SignService.ResolveWord | backend/Ahmad-Library/sign_service.py:174-212 | the single-word branches add exactly the unit of `WordStep` |
| SignService.ShapeResult | backend/Ahmad-Library/sign_service.py:227-264 | success exactly when there are paths and the composer succeeds; no paths gives the fixed message with both reports; a composer failure gives its message with both reports emptied |
| SignService.TextToSignVideo | backend/Ahmad-Library/sign_service.py:223-264 | "No translatable words found." exactly when no unit was resolved, with the skipped words kept; success exactly when something was resolved and the composer succeeded, with both reports and the composer's video path and no error; a composer crash on the clip list yields its message as the error |
| Strings.Collapse | backend/Ahmad-Library/Debug/check_vocab.py:6 | collapsing whitespace runs empties only the empty string |
| Strings.CollapseIsJoin | backend/Ahmad-Library/Debug/check_vocab.py:6 | on a stripped string, replacing whitespace runs by one space is the single-space join of its words |
| VocabNorm.Norm | backend/Ahmad-Library/Debug/check_vocab.py:4-7 | `norm(s)` is empty exactly when `s` is all whitespace |
| VocabNorm.NormIsJoinOfWords | backend/Ahmad-Library/Debug/check_vocab.py:4-7 | `norm(s)` is the single-space join of the words of `s.lower()`, `" ".join(s.lower().split())` |
| VocabNorm.NormShape | backend/Ahmad-Library/Debug/check_vocab.py:4-7 | `norm` yields lower case with no edge whitespace, plain spaces only, never two in a row; it is empty exactly for all-whitespace input |
| VocabNorm.NormOfNormal | backend/Ahmad-Library/Debug/check_vocab.py:4-7 | `norm` leaves a string of that shape unchanged |
| VocabNorm.NormIdempotent | backend/Ahmad-Library/Debug/check_vocab.py:4-7 | `norm(norm(s)) == norm(s)` |
| VocabCollect.Keys | backend/Ahmad-Library/Debug/check_vocab.py:16 | iterating a dict yields every key once |
| VocabCollect.KeysInOrder | backend/Ahmad-Library/Debug/check_vocab.py:16 | dict keys come in the order of their first appearance: a key listed before another first occurs before the other's first occurrence |
| VocabCollect.Lookup | backend/Ahmad-Library/Debug/check_vocab.py:17-19 | a dict holds a value exactly for keys present, and with duplicate keys it is the value of the last pair with that key |
| VocabCollect.Iterate | backend/Ahmad-Library/Debug/check_vocab.py:16-21 | `for x in v` raises exactly on null, booleans and numbers; a list yields its items, a dict its keys in the order `Keys` lists them (each key once), a string its one-character strings in order |
| VocabCollect.Get | backend/Ahmad-Library/Debug/check_vocab.py:17-19 | `.get` raises exactly on a non-dict and otherwise gives the value or the default |
| VocabCollect.EntriesSpec | backend/Ahmad-Library/Debug/check_vocab.py:20-23 | an `en` list contributes exactly the normalised forms of its non-blank strings |
| VocabCollect.EntriesNormal | backend/Ahmad-Library/Debug/check_vocab.py:20-23 | every contributed entry is non-empty and normal |
| VocabCollect.GatherSpec | backend/Ahmad-Library/Debug/check_vocab.py:16-23 | a loop over items succeeds exactly when no item raises, and then collects exactly the items' strings |
| VocabCollect.RowEnglish | backend/Ahmad-Library/Debug/check_vocab.py:17-23 | a row raises exactly when it, or its present `token`, is not a dict; every string it gives is non-empty and normal |
| VocabCollect.RowEnglishSpec | backend/Ahmad-Library/Debug/check_vocab.py:17-23 | a row raises exactly when it, or its present `token`, is not a dict; otherwise it contributes exactly the normalised non-blank strings of a list-valued `en` |
| VocabCollect.BlockEnglish | backend/Ahmad-Library/Debug/check_vocab.py:17-23 | a block that is not a dict raises; every string it gives is non-empty and normal |
| VocabCollect.BlockEnglishSpec | backend/Ahmad-Library/Debug/check_vocab.py:17-23 | a block succeeds exactly when it is a dict, its `mapping` (default `[]`) is iterable and no row raises; it then contributes exactly the strings of its rows |
| VocabCollect.CollectEnglish | backend/Ahmad-Library/Debug/check_vocab.py:14-23 | a null, boolean or number document raises, since it cannot be iterated; every string collected is non-empty and normal |
| VocabCollect.CollectSpec | backend/Ahmad-Library/Debug/check_vocab.py:14-23 | the script raises on a non-iterable document, a non-empty dict or string, or a raising block; on a list it collects exactly the blocks' strings |
| VocabList.Less | backend/Ahmad-Library/Debug/check_vocab.py:25 | Python's string `<` never puts a string before itself, and puts every proper prefix first |
| VocabList.LessIsLexBefore | backend/Ahmad-Library/Debug/check_vocab.py:25 | Python's string `<` is the lexicographic order: a proper prefix first, or otherwise the smaller character at the first difference |
| VocabList.Insert | backend/Ahmad-Library/Debug/check_vocab.py:23 | adding to a sorted distinct list keeps it sorted and distinct, adds exactly the element, and grows only when the element is new |
| VocabList.SortedUnique | backend/Ahmad-Library/Debug/check_vocab.py:25 | there is only one strictly sorted list of a given set of strings |
| VocabList.SortedList | backend/Ahmad-Library/Debug/check_vocab.py:25 | `sorted(english)` is strictly increasing in Python string order, holds exactly the set's elements, and has the set's size |
| VocabList.EnglishList | backend/Ahmad-Library/Debug/check_vocab.py:14-25 | the script fails exactly when collection raises; otherwise its list is sorted, distinct, holds exactly the collected strings, and each is non-empty and normal |

## Left out

- `collect_mp4_paths` and the sign library's `translate` are not modelled. Together they are the `Env.lookup` oracle: a text's clip paths, with a library exception read as no clips. The path filter (`.mp4` suffix and file existence) happens inside the oracle.
- The existence checks for `Pause.mp4` and `0.mp4` (`os.path.exists`) are the `Env` flags `usePause` and `zeroExists`.
- Reading `supported_words.txt` at start-up (lines 21-27 of the service) is not modelled. The vocabulary is a parameter.
- Clip composition in `text_to_sign_video` is the `compose` oracle. This covers `mkdir`, the `uuid` file name, `VideoFileClip`, `concatenate_videoclips` and `write_videofile`.
- `ProcessTextToClips` never raises, because the oracles are total. So the `except` of `text_to_sign_video` is reached only through the composer.
- The FastAPI app, the HTML page, the `/translate` route and the command-line loop are not part of this model.
- Only ASCII characters are modelled. Python's Unicode rules for `\w`, `\s`, `isdigit`, `isspace` and `lower` are left out.
- JSON numbers are integers. Floats would never reach the collected strings: the script would either ignore them or raise on them.
- Parsing the dictionary file (`json.load`) and finding it through `Assets.ROOT_DIR` are not modelled. The parsed document is a parameter.
- The script's output is not modelled: it prints the count and the first 100 entries, then writes `pk_english_vocab.txt` (lines 27-33 of check_vocab.py).

=== FILE: chars.dfy ===
/** The character classes the sign service relies on, restricted to ASCII:
    Python's `str.isspace`, regex `\s`, regex `\w`, `str.isdigit` and
    `str.lower` agree with these definitions on ASCII characters. */
module Chars {

  /** Whitespace as `str.isspace()`, `str.strip()`, `str.split()` and the
      regex class `\s` see it on ASCII: tab, line feed, vertical tab, form
      feed, carriage return, the four information separators 0x1C..0x1F,
      and space. */
  predicate IsSpace(c: char) {
    var n := c as int;
    n == 32 || 9 <= n <= 13 || 28 <= n <= 31
  }

  predicate IsUpper(c: char) {
    'A' <= c <= 'Z'
  }

  predicate IsLower(c: char) {
    'a' <= c <= 'z'
  }

  /** `str.isdigit()` on one ASCII character. */
  predicate IsDigit(c: char) {
    '0' <= c <= '9'
  }

  /** The regex class `\w` on ASCII: letters, digits and underscore. */
  predicate IsWordChar(c: char) {
    IsUpper(c) || IsLower(c) || IsDigit(c) || c == '_'
  }

  /** `str.lower()` on one ASCII character. */
  function ToLower(c: char): (r: char)
    ensures !IsUpper(r)
    ensures IsUpper(c) ==> IsLower(r) && r as int == c as int + 32
    ensures !IsUpper(c) ==> r == c
    ensures IsSpace(r) <==> IsSpace(c)
  {
    if IsUpper(c) then (c as int + 32) as char else c
  }
}

=== FILE: clean_token.dfy ===
/** `clean_token` of the sign service and the tokenisation that follows it:
    the whole input text is cleaned once and then split on whitespace. */
module SignText {
  import opened Chars
  import opened Strings

  /** Characters the regex `[^\w\s\-]` does not remove. */
  predicate KeptByClean(c: char) {
    IsWordChar(c) || IsSpace(c) || c == '-'
  }

  /** `clean_token`: strip, lower-case, delete every character outside
      `\w`, `\s` and `-`, strip again. The result is lower-case, holds only
      kept characters and has no edge whitespace; the strings in that shape
      are exactly the ones it leaves alone; and no word character is lost:
      the letters, digits and underscores of the result are those of the
      lower-cased input, in order. */
  function CleanToken(word: string): (r: string)
    ensures IsLowerCase(r)
    ensures All(r, KeptByClean)
    ensures NoEdgeSpace(r)
    ensures |r| <= |word|
    ensures r == word <==> IsLowerCase(word) && All(word, KeptByClean) && NoEdgeSpace(word)
    ensures Filter(r, IsWordChar) == Filter(LowerStr(word), IsWordChar)
  {
    var r := Strip(Filter(LowerStr(Strip(word)), KeptByClean));
    CleanedShape(word);
    CleanedKeepsWordChars(word);
    CleanedFixesClean(word);
    r
  }

  /** The cleaned string is lower-case and holds only kept characters. */
  lemma CleanedShape(word: string)
    ensures var r := Strip(Filter(LowerStr(Strip(word)), KeptByClean));
      IsLowerCase(r) && All(r, KeptByClean)
  {
    var lowered := LowerStr(Strip(word));
    var kept := Filter(lowered, KeptByClean);
    var r := Strip(kept);
    forall k | 0 <= k < |r| ensures !IsUpper(r[k]) && KeptByClean(r[k]) {
      assert r[k] in kept;
      assert r[k] in lowered;
    }
  }

  /** Cleaning loses no letter, digit or underscore of the lowered word. */
  lemma CleanedKeepsWordChars(word: string)
    ensures Filter(Strip(Filter(LowerStr(Strip(word)), KeptByClean)), IsWordChar) == Filter(LowerStr(word), IsWordChar)
  {
    SpaceIsNoWordChar();
    CleanedKeeps(word, IsWordChar);
  }

  /** A kept character other than whitespace: a word character or `-`. */
  predicate KeptNonSpace(c: char) {
    KeptByClean(c) && !IsSpace(c)
  }

  /** `clean_token` keeps every word character and every `-` of the
      lower-cased word, in order; only whitespace at the ends and the
      characters outside the regex class go. */
  lemma CleanKeepsKeptNonSpace(word: string)
    ensures Filter(CleanToken(word), KeptNonSpace) == Filter(LowerStr(word), KeptNonSpace)
  {
    CleanedKeeps(word, KeptNonSpace);
  }

  /** Cleaning loses nothing a test keeps that rejects whitespace and
      accepts only characters the regex keeps. */
  lemma CleanedKeeps(word: string, p: char -> bool)
    requires forall c :: IsSpace(c) ==> !p(c)
    requires forall c :: p(c) ==> KeptByClean(c)
    ensures Filter(Strip(Filter(LowerStr(Strip(word)), KeptByClean)), p) == Filter(LowerStr(word), p)
  {
    var lw := LowerStr(word);
    var lowered := LowerStr(Strip(word));
    var kept := Filter(lowered, KeptByClean);
    assert Filter(Strip(kept), p) == Filter(kept, p) by {
      FilterStrip(kept, p);
    }
    assert Filter(kept, p) == Filter(lowered, p) by {
      FilterFilter(lowered, KeptByClean, p);
    }
    assert lowered == Strip(lw) by {
      LowerStrip(word);
    }
    assert Filter(Strip(lw), p) == Filter(lw, p) by {
      FilterStrip(lw, p);
    }
  }

  /** Whitespace is never a word character. */
  lemma SpaceIsNoWordChar()
    ensures forall c :: IsSpace(c) ==> !IsWordChar(c)
  {
  }

  /** A word already in cleaned shape comes back unchanged. */
  lemma CleanedFixesClean(word: string)
    ensures IsLowerCase(word) && All(word, KeptByClean) && NoEdgeSpace(word) ==>
      Strip(Filter(LowerStr(Strip(word)), KeptByClean)) == word
  {
    if IsLowerCase(word) && All(word, KeptByClean) && NoEdgeSpace(word) {
      LowerStrOfLowerCase(word);
    }
  }

  /** `clean_token` is idempotent. */
  lemma CleanTokenIdempotent(word: string)
    ensures CleanToken(CleanToken(word)) == CleanToken(word)
  {
    var x := CleanToken(word);
    assert Strip(x) == x;
    LowerStrOfLowerCase(x);
    assert Filter(x, KeptByClean) == x;
  }

  /** `clean_token(text).split()`: the token list the cursor loop walks.
      Every token is non-empty, whitespace-free, lower-case and holds only
      characters `clean_token` keeps. */
  function Tokenize(text: string): (r: seq<string>)
    ensures forall k :: 0 <= k < |r| ==> IsCleanPiece(r[k])
  {
    var cleaned := CleanToken(text);
    var r := Split(cleaned);
    forall k | 0 <= k < |r| ensures IsCleanPiece(r[k]) {
      PieceOfCleaned(cleaned, r[k]);
    }
    r
  }

  /** A token as `Tokenize` produces it. */
  predicate IsCleanPiece(t: string) {
    t != [] && HasNoSpace(t) && IsLowerCase(t) && All(t, KeptByClean)
  }

  lemma PieceOfCleaned(cleaned: string, t: string)
    requires IsLowerCase(cleaned) && All(cleaned, KeptByClean)
    requires t in Split(cleaned)
    ensures IsCleanPiece(t)
  {
    forall k | 0 <= k < |t| ensures !IsUpper(t[k]) && KeptByClean(t[k]) {
      assert t[k] in t;
      var j :| 0 <= j < |cleaned| && cleaned[j] == t[k];
    }
  }

  /** Round trip: tokenising the space-join of any list of clean tokens
      gives that list back, so re-normalising normalised text changes
      nothing. */
  lemma TokenizeJoin(ts: seq<string>)
    requires forall k :: 0 <= k < |ts| ==> IsCleanPiece(ts[k])
    ensures Tokenize(Join(" ", ts)) == ts
  {
    JoinedIsClean(ts);
    SplitOfCleanPieces(ts);
  }

  /** Cleaning leaves the space-join of clean tokens as it is. */
  lemma JoinedIsClean(ts: seq<string>)
    requires forall k :: 0 <= k < |ts| ==> IsCleanPiece(ts[k])
    ensures CleanToken(Join(" ", ts)) == Join(" ", ts)
  {
    JoinOfCleanTokens(ts);
    CleanedFixesClean(Join(" ", ts));
  }

  /** Splitting the space-join of clean tokens gives the tokens back. */
  lemma SplitOfCleanPieces(ts: seq<string>)
    requires forall k :: 0 <= k < |ts| ==> IsCleanPiece(ts[k])
    ensures Split(Join(" ", ts)) == ts
  {
    forall k | 0 <= k < |ts| ensures ts[k] != [] && HasNoSpace(ts[k]) {
      assert IsCleanPiece(ts[k]);
    }
    SplitJoin(ts);
  }

  /** The tokens are the whitespace-separated pieces of the lower-cased
      text once the regex has deleted what it does not keep: inner
      whitespace survives the cleaning as the boundaries between tokens. */
  lemma TokenizeKept(text: string)
    ensures Tokenize(text) == Split(Filter(LowerStr(text), KeptByClean))
  {
    var lw := LowerStr(text);
    var kept := Filter(LowerStr(Strip(text)), KeptByClean);
    assert Tokenize(text) == Split(kept) by {
      SplitStrip(kept);
    }
    assert LowerStr(Strip(text)) == Strip(lw) by {
      LowerStrip(text);
    }
    StripMiddle(lw);
    var a, b :| lw == a + (Strip(lw) + b) && All(a, IsSpace) && All(b, IsSpace);
    assert Filter(lw, KeptByClean) == a + (kept + b) by {
      FilterAppend(a, Strip(lw) + b, KeptByClean);
      FilterAppend(Strip(lw), b, KeptByClean);
      assert All(a, KeptByClean) && All(b, KeptByClean);
    }
    SplitAround(a, kept, b);
  }

  /** The tokens are the cleaned text cut at its whitespace runs: joined by
      single spaces they give the cleaned text with every whitespace run
      replaced by one space. */
  lemma TokenizeCollapses(text: string)
    ensures Join(" ", Tokenize(text)) == Collapse(CleanToken(text))
  {
    CollapseIsJoin(CleanToken(text));
  }

  /** The space-join of clean whitespace-free pieces is lower-case, made of
      kept characters and has no edge whitespace. */
  lemma {:induction false} JoinOfCleanTokens(ts: seq<string>)
    requires forall k :: 0 <= k < |ts| ==> IsCleanPiece(ts[k])
    ensures IsLowerCase(Join(" ", ts)) && All(Join(" ", ts), KeptByClean)
    ensures Join(" ", ts) == [] || (!IsSpace(Join(" ", ts)[0]) && !IsSpace(Join(" ", ts)[|Join(" ", ts)| - 1]))
    decreases |ts|
  {
    if |ts| > 1 {
      JoinOfCleanTokens(ts[1..]);
      var rest := Join(" ", ts[1..]);
      var j := ts[0] + " " + rest;
      assert Join(" ", ts) == j;
      assert rest != [] by {
        assert ts[1..][0] == ts[1];
        JoinHeadPrefix(ts[1..]);
      }
      forall k | 0 <= k < |j| ensures !IsUpper(j[k]) && KeptByClean(j[k]) {
        if k < |ts[0]| {
          assert j[k] == ts[0][k];
        } else if k == |ts[0]| {
          assert j[k] == ' ';
        } else {
          assert j[k] == rest[k - |ts[0]| - 1];
        }
      }
      assert j[|j| - 1] == rest[|rest| - 1];
    }
  }
}

=== FILE: phrase_match.dfy ===
/** `max_phrase_match`: greedy, longest-first matching of up to three tokens
    against the supported vocabulary. */
module PhraseMatch {
  import opened Strings
  import opened Wrappers

  /** Python's `tokens[i:j]` for non-negative bounds: bounds past the end
      are cut down to the length, and an empty slice results when `i`
      reaches `j`. */
  function Slice(tokens: seq<string>, i: nat, j: nat): (r: seq<string>)
    ensures i <= j <= |tokens| ==> r == tokens[i..j]
    ensures i <= |tokens| < j ==> r == tokens[i..]
    ensures |tokens| <= i ==> r == []
  {
    var lo := if i <= |tokens| then i else |tokens|;
    var hi := if j <= |tokens| then j else |tokens|;
    if lo <= hi then tokens[lo..hi] else []
  }

  /** The phrase of `size` tokens starting at `i`: `" ".join(tokens[i:i + size])`.
      It is empty when there is nothing to take, and otherwise starts with
      the token at `i`. */
  function Candidate(tokens: seq<string>, i: nat, size: nat): (r: string)
    ensures i >= |tokens| || size == 0 ==> r == []
    ensures i < |tokens| && size >= 1 ==> |tokens[i]| <= |r| && r[..|tokens[i]|] == tokens[i]
  {
    var ts := Slice(tokens, i, i + size);
    if ts == [] then Join(" ", ts)
    else
      assert ts[0] == tokens[i];
      JoinHeadPrefix(ts);
      Join(" ", ts)
  }

  /** Every token is a non-empty, whitespace-free word. */
  predicate AreWords(tokens: seq<string>) {
    forall k :: 0 <= k < |tokens| ==> tokens[k] != [] && HasNoSpace(tokens[k])
  }

  /** Round trip: when the tokens are words, splitting a candidate phrase
      gives back exactly the tokens it joins. */
  lemma CandidateSplits(tokens: seq<string>, i: nat, size: nat)
    requires AreWords(tokens)
    ensures Split(Candidate(tokens, i, size)) == Slice(tokens, i, i + size)
  {
    var ts := Slice(tokens, i, i + size);
    forall k | 0 <= k < |ts| ensures ts[k] != [] && HasNoSpace(ts[k]) {
      assert ts[k] == tokens[i + k];
    }
    SplitJoin(ts);
  }

  /** The first size in `sizes` whose candidate phrase is in the
      vocabulary, with that phrase; `(None, 0)` when there is none. */
  function FirstHit(vocab: set<string>, tokens: seq<string>, i: nat, sizes: seq<nat>): (Option<string>, nat)
    decreases |sizes|
  {
    if sizes == [] then (None, 0)
    else
      var phrase := Candidate(tokens, i, sizes[0]);
      if phrase in vocab then (Some(phrase), sizes[0]) else FirstHit(vocab, tokens, i, sizes[1..])
  }

  /** `max_phrase_match`: a supported phrase of 1 to 3 tokens at `i` with
      its size, or `(None, 0)`. */
  function MaxPhraseMatch(vocab: set<string>, tokens: seq<string>, i: nat): (r: (Option<string>, nat))
    ensures r.0.Some? ==> 1 <= r.1 <= 3 && r.0.value in vocab && r.0.value == Candidate(tokens, i, r.1)
    ensures r.0.None? ==> r.1 == 0
  {
    FirstHit(vocab, tokens, i, [3, 2, 1])
  }

  /** Longest first: the match is the first of the 3-, 2- and 1-token
      phrases at `i` that is in the vocabulary, and there is no match
      exactly when none of the three is. */
  lemma MaxPhraseMatchIsFirst(vocab: set<string>, tokens: seq<string>, i: nat)
    ensures var r := MaxPhraseMatch(vocab, tokens, i);
      r.0.Some? ==> forall size :: r.1 < size <= 3 ==> Candidate(tokens, i, size) !in vocab
    ensures var r := MaxPhraseMatch(vocab, tokens, i);
      r.0.None? <==> forall size :: 1 <= size <= 3 ==> Candidate(tokens, i, size) !in vocab
  {
  }

  /** When the reported size runs past the end of the tokens, the matched
      phrase is the join of all remaining tokens: the over-count only ever
      happens on the last match. */
  lemma PhraseOvershoot(vocab: set<string>, tokens: seq<string>, i: nat)
    requires i < |tokens|
    ensures var r := MaxPhraseMatch(vocab, tokens, i);
      r.0.Some? && i + r.1 > |tokens| ==> r.0.value == Join(" ", tokens[i..])
  {
  }

  /** The size reported for a one-token tail can be 3: slicing truncates,
      so the 3-token candidate is the lone token itself. */
  lemma OvershootExample()
    ensures MaxPhraseMatch({"hello"}, ["hello"], 0) == (Some("hello"), 3)
  {
    assert Candidate(["hello"], 0, 3) == "hello";
  }

  /** With both "bus" and "bus stop" supported, "bus stop" wins at the
      start of "bus stop near market". */
  lemma LongestMatchExample()
    ensures MaxPhraseMatch({"bus", "bus stop"}, ["bus", "stop", "near", "market"], 0) == (Some("bus stop"), 2)
  {
    var ts := ["bus", "stop", "near", "market"];
    assert Slice(ts, 0, 3) == ["bus", "stop", "near"];
    assert Candidate(ts, 0, 3) == "bus stop near";
    assert Slice(ts, 0, 2) == ["bus", "stop"];
    assert Candidate(ts, 0, 2) == "bus stop";
  }

  /** Inside the cursor loop the matched phrase is never empty, so the
      source's truthiness test `if phrase:` is the same as a match. */
  lemma MatchedPhraseNonEmpty(vocab: set<string>, tokens: seq<string>, i: nat)
    requires i < |tokens| && tokens[i] != []
    ensures var r := MaxPhraseMatch(vocab, tokens, i);
      r.0.Some? ==> r.0.value != []
  {
    var r := MaxPhraseMatch(vocab, tokens, i);
    if r.0.Some? {
      var s := Slice(tokens, i, i + r.1);
      assert s[0] == tokens[i];
      JoinHeadPrefix(s);
    }
  }
}

=== FILE: pipeline.dfy ===
/** The cursor loop of `process_text_to_clips`, stated functionally: one
    `Step` per loop turn, `Units` for the whole walk, and the plan the
    accumulators hold (clip paths with pauses, translated labels, skipped
    words). */
module Plan {
  import opened Chars
  import opened Strings
  import opened Wrappers
  import opened SignLibrary
  import opened PhraseMatch

  /** What one turn of the cursor loop produces. */
  datatype Unit =
      /** A vocabulary phrase or a single word found whole in the library;
          `consumed` are the tokens the cursor moves past. */
    | WholeMatch(text: string, consumed: seq<string>, paths: seq<Path>)
      /** A word spelled out character by character. */
    | SpelledOut(word: string, paths: seq<Path>)
      /** A word that could be resolved no way at all. */
    | Skipped(word: string)
  {
    predicate Resolved() {
      !Skipped?
    }

    /** The tokens this unit accounts for. */
    function Covered(): seq<string> {
      match this
      case WholeMatch(_, consumed, _) => consumed
      case SpelledOut(word, _) => [word]
      case Skipped(word) => [word]
    }

    /** The entry this unit adds to `translated_labels`. */
    function Label(): string
      requires Resolved()
    {
      match this
      case WholeMatch(text, _, _) => text
      case SpelledOut(word, _) => PlusLabel(word)
    }
  }

  /** `str.isdigit()` on an ASCII string: non-empty and all digits. */
  predicate IsDigitWord(word: string) {
    word != [] && forall k :: 0 <= k < |word| ==> IsDigit(word[k])
  }

  /** The path came from the library or is the local zero clip. */
  ghost predicate FromLibrary(env: Env, path: Path) {
    (env.zeroExists && path == env.zeroPath) || exists t :: path in env.lookup(t)
  }

  /** Every clip of a spelled word came from the library or is the zero clip. */
  lemma {:induction false} SpelledFromLibrary(env: Env, word: string)
    requires SpellWord(env, word).Some?
    ensures forall p :: p in SpellWord(env, word).value ==> FromLibrary(env, p)
    decreases |word|
  {
    if word != [] {
      SpelledFromLibrary(env, word[1..]);
      var c := word[0];
      var head := CharClips(env, c).value;
      assert SpellWord(env, word).value == head + SpellWord(env, word[1..]).value;
      forall p | p in head ensures FromLibrary(env, p) {
        if IsDigit(c) {
          if env.lookup([c]) == [] {
            assert p == env.zeroPath;
          } else {
            assert p in env.lookup([c]);
          }
        } else if env.lookup(SingleToken(c)) != [] {
          assert p in env.lookup(SingleToken(c));
        } else {
          assert p in env.lookup(DoubleToken(c));
        }
      }
    }
  }

  /** The facts every unit of the walk satisfies: it accounts for at least
      one token, and a resolved unit carries at least one clip, all from the
      library. */
  ghost predicate UnitOk(env: Env, u: Unit) {
    && u.Covered() != []
    && (u.Resolved() ==> u.paths != [] && forall p :: p in u.paths ==> FromLibrary(env, p))
  }

  /** The vocabulary branch of one turn: the longest supported phrase at
      `i`, when the library has clips for it, as a whole match of the tokens
      the cursor moves past. */
  function PhraseStep(env: Env, vocab: set<string>, tokens: seq<string>, i: nat): (r: Option<(Unit, nat)>)
    requires i < |tokens| && tokens[i] != []
    ensures r.Some? ==> r.value.1 >= 1
    ensures r.Some? ==> r.value.0.WholeMatch? && r.value.0.paths == env.lookup(r.value.0.text) && r.value.0.paths != []
  {
    var m := MaxPhraseMatch(vocab, tokens, i);
    var phrase := m.0;
    var size := m.1;
    var whole := if phrase.Some? && phrase.value != [] then TryWholeToken(env, phrase.value) else None;
    if whole.Some? then
      Some((WholeMatch(phrase.value, Slice(tokens, i, i + size), whole.value), size))
    else
      None
  }

  /** The vocabulary branch yields a whole match of the tokens the cursor
      moves past, labelled by their space-join, which is supported and has
      clips; it yields nothing exactly when no phrase matched or the matched
      phrase has no clips. */
  lemma PhraseStepFacts(env: Env, vocab: set<string>, tokens: seq<string>, i: nat)
    requires i < |tokens| && tokens[i] != []
    ensures var r := PhraseStep(env, vocab, tokens, i);
      && (r.Some? ==> r.value.0.WholeMatch? && r.value.0.consumed == Slice(tokens, i, i + r.value.1))
      && (r.Some? ==> r.value.0.text == Join(" ", r.value.0.consumed) && r.value.0.text in vocab)
      && (r.Some? ==> r.value.0.paths == env.lookup(r.value.0.text) && r.value.0.paths != [])
    ensures var m := MaxPhraseMatch(vocab, tokens, i);
      PhraseStep(env, vocab, tokens, i).None? <==> m.0.None? || env.lookup(m.0.value) == []
  {
    var m := MaxPhraseMatch(vocab, tokens, i);
    var r := PhraseStep(env, vocab, tokens, i);
    if m.0.Some? {
      assert m.0.value != [] by {
        MatchedPhraseNonEmpty(vocab, tokens, i);
      }
      assert r.None? <==> env.lookup(m.0.value) == [];
    }
  }

  /** The single-word handling of one token, for when no vocabulary phrase
      was found whole: a multi-digit number is only ever spelled; any other
      word is tried whole first and spelled second. */
  function WordStep(env: Env, word: string): (r: Unit)
    ensures r.Covered() == [word]
    ensures r.WholeMatch? ==> r.text == word && r.paths == env.lookup(word) && r.paths != []
  {
    if IsDigitWord(word) && |word| > 1 then
      match SpellWord(env, word)
      case Some(paths) => SpelledOut(word, paths)
      case None => Skipped(word)
    else
      match TryWholeToken(env, word)
      case Some(paths) => WholeMatch(word, [word], paths)
      case None =>
        match SpellWord(env, word)
        case Some(paths) => SpelledOut(word, paths)
        case None => Skipped(word)
  }

  /** The single-word branch accounts for the word alone: a whole match is
      the word with the library's clips for it (never for a multi-digit
      number); a spelling is the word's spelling; a skip means spelling
      failed and, unless the word is a multi-digit number, that the library
      had no clips for it either. Any other word with clips is matched
      whole, before spelling is tried. */
  lemma WordStepFacts(env: Env, word: string)
    requires word != []
    ensures var r := WordStep(env, word);
      && r.Covered() == [word]
      && (r.WholeMatch? ==> r.text == word && !(IsDigitWord(word) && |word| > 1))
      && (r.WholeMatch? ==> r.paths == env.lookup(word) && r.paths != [])
      && (r.SpelledOut? ==> r.word == word && SpellWord(env, word) == Some(r.paths) && r.paths != [])
      && (r.Skipped? ==> r.word == word && SpellWord(env, word).None?)
      && (r.Skipped? && !(IsDigitWord(word) && |word| > 1) ==> env.lookup(word) == [])
      && (!(IsDigitWord(word) && |word| > 1) && env.lookup(word) != [] ==> r == WholeMatch(word, [word], env.lookup(word)))
  {
  }

  /** One turn of the cursor loop at position `i`: the unit produced and how
      far the cursor moves, which is always at least one token. */
  function Step(env: Env, vocab: set<string>, tokens: seq<string>, i: nat): (r: (Unit, nat))
    requires i < |tokens|
    requires tokens[i] != []
    ensures r.1 >= 1
  {
    match PhraseStep(env, vocab, tokens, i)
    case Some(hit) => hit
    case None =>
      (WordStep(env, tokens[i]), 1)
  }

  /** One turn's unit accounts for exactly the tokens the cursor moves past. */
  lemma StepCovers(env: Env, vocab: set<string>, tokens: seq<string>, i: nat)
    requires i < |tokens| && tokens[i] != []
    ensures Step(env, vocab, tokens, i).0.Covered() == Slice(tokens, i, i + Step(env, vocab, tokens, i).1)
  {
    StepFacts(env, vocab, tokens, i);
  }

  /** What one turn does: the unit accounts for exactly the tokens the
      cursor moves past; only a vocabulary phrase moves it by more than one;
      a whole match is labelled by the space-join of its tokens and carries
      the library's clips for that label; a spelled or skipped unit is the
      token under the cursor; a resolved unit carries at least one clip;
      when no phrase hits, a token with clips that is not a multi-digit
      number is matched whole rather than spelled. */
  lemma StepFacts(env: Env, vocab: set<string>, tokens: seq<string>, i: nat)
    requires i < |tokens| && tokens[i] != []
    ensures var r := Step(env, vocab, tokens, i);
      && r.0.Covered() == Slice(tokens, i, i + r.1)
      && (r.1 > 1 ==> r.0.WholeMatch? && r.0.text in vocab)
      && (r.0.WholeMatch? ==> r.0.text == Join(" ", r.0.consumed) && r.0.paths == env.lookup(r.0.text))
      && (r.0.WholeMatch? ==> r.0.text in vocab || r.0.consumed == [tokens[i]])
      && (r.0.SpelledOut? ==> r.0.word == tokens[i] && SpellWord(env, tokens[i]) == Some(r.0.paths))
      && (r.0.Skipped? ==> r.0.word == tokens[i] && SpellWord(env, tokens[i]).None?)
      && (r.0.Resolved() ==> r.0.paths != [])
      && (PhraseStep(env, vocab, tokens, i).None? && !(IsDigitWord(tokens[i]) && |tokens[i]| > 1) && env.lookup(tokens[i]) != [] ==>
            r.0 == WholeMatch(tokens[i], [tokens[i]], env.lookup(tokens[i])))
  {
    PhraseStepFacts(env, vocab, tokens, i);
    if PhraseStep(env, vocab, tokens, i).None? {
      WordStepFacts(env, tokens[i]);
      assert Slice(tokens, i, i + 1) == [tokens[i]];
    }
  }

  /** The turn when the vocabulary branch hits: a whole match of the
      phrase's tokens with the phrase's clips. */
  lemma StepOnPhrase(env: Env, vocab: set<string>, tokens: seq<string>, i: nat)
    requires i < |tokens| && tokens[i] != []
    requires var m := MaxPhraseMatch(vocab, tokens, i);
      m.0.Some? && m.0.value != [] && TryWholeToken(env, m.0.value).Some?
    ensures var m := MaxPhraseMatch(vocab, tokens, i);
      Step(env, vocab, tokens, i) ==
        (WholeMatch(m.0.value, Slice(tokens, i, i + m.1), TryWholeToken(env, m.0.value).value), m.1)
  {
  }

  /** The turn when the vocabulary branch misses: the single-word handling
      of the token under the cursor, moving by one. */
  lemma StepOnWord(env: Env, vocab: set<string>, tokens: seq<string>, i: nat)
    requires i < |tokens| && tokens[i] != []
    requires var m := MaxPhraseMatch(vocab, tokens, i);
      !(m.0.Some? && m.0.value != [] && TryWholeToken(env, m.0.value).Some?)
    ensures Step(env, vocab, tokens, i) == (WordStep(env, tokens[i]), 1)
  {
  }

  /** Every unit a turn produces satisfies `UnitOk`. */
  lemma StepOk(env: Env, vocab: set<string>, tokens: seq<string>, i: nat)
    requires i < |tokens| && tokens[i] != []
    ensures UnitOk(env, Step(env, vocab, tokens, i).0)
  {
    var u := Step(env, vocab, tokens, i).0;
    StepFacts(env, vocab, tokens, i);
    if u.SpelledOut? {
      SpelledFromLibrary(env, tokens[i]);
    }
  }

  /** The turn the loop would take at each position of the token list. */
  function Turns(env: Env, vocab: set<string>, tokens: seq<string>): (r: seq<(Unit, nat)>)
    requires forall k :: 0 <= k < |tokens| ==> tokens[k] != []
    ensures |r| == |tokens|
    ensures forall k :: 0 <= k < |r| ==> r[k].1 >= 1
  {
    seq(|tokens|, k requires 0 <= k < |tokens| => Step(env, vocab, tokens, k))
  }

  /** Cursor moves never stand still. */
  ghost predicate Advancing(turns: seq<(Unit, nat)>) {
    forall k :: 0 <= k < |turns| ==> turns[k].1 >= 1
  }

  /** The units a cursor collects from position `i` to the end when the turn
      at each position is read from `turns`. */
  function Walk(turns: seq<(Unit, nat)>, i: nat): seq<Unit>
    requires Advancing(turns)
    decreases |turns| - i
  {
    if i >= |turns| then [] else [turns[i].0] + Walk(turns, i + turns[i].1)
  }

  /** The units the cursor loop produces from position `i` to the end:
      never more than the tokens that remain. */
  function Units(env: Env, vocab: set<string>, tokens: seq<string>, i: nat): (r: seq<Unit>)
    requires forall k :: 0 <= k < |tokens| ==> tokens[k] != []
    ensures i <= |tokens| ==> |r| <= |tokens| - i
  {
    var turns := Turns(env, vocab, tokens);
    WalkLength(turns, i);
    Walk(turns, i)
  }

  /** A walk collects at most one unit per position it has left. */
  lemma {:induction false} WalkLength(turns: seq<(Unit, nat)>, i: nat)
    requires Advancing(turns)
    ensures i <= |turns| ==> |Walk(turns, i)| <= |turns| - i
    decreases |turns| - i
  {
    if i < |turns| {
      WalkLength(turns, i + turns[i].1);
    }
  }

  /** `turns` holds the turn at every position; each entry is handed out
      only where the turn at that position is asked for. */
  ghost predicate IsTurnTable(env: Env, vocab: set<string>, tokens: seq<string>, turns: seq<(Unit, nat)>)
    requires forall k :: 0 <= k < |tokens| ==> tokens[k] != []
  {
    && |turns| == |tokens|
    && Advancing(turns)
    && forall k {:trigger Step(env, vocab, tokens, k)} :: 0 <= k < |tokens| ==> turns[k] == Step(env, vocab, tokens, k)
  }

  /** The table of turns exists, and walking it is walking the tokens. */
  lemma TurnTable(env: Env, vocab: set<string>, tokens: seq<string>) returns (turns: seq<(Unit, nat)>)
    requires forall k :: 0 <= k < |tokens| ==> tokens[k] != []
    ensures IsTurnTable(env, vocab, tokens, turns)
  {
    turns := Turns(env, vocab, tokens);
  }

  /** Walking a table of turns is walking the tokens. */
  lemma TableWalk(env: Env, vocab: set<string>, tokens: seq<string>, turns: seq<(Unit, nat)>)
    requires forall k :: 0 <= k < |tokens| ==> tokens[k] != []
    requires IsTurnTable(env, vocab, tokens, turns)
    ensures Walk(turns, 0) == Units(env, vocab, tokens, 0)
  {
    var table := Turns(env, vocab, tokens);
    forall k | 0 <= k < |turns| ensures turns[k] == table[k] {
      assert turns[k] == Step(env, vocab, tokens, k);
    }
    assert turns == table;
  }

  /** One turn of a walk. */
  lemma WalkUnfold(turns: seq<(Unit, nat)>, i: nat)
    requires Advancing(turns) && i < |turns|
    ensures Walk(turns, i) == [turns[i].0] + Walk(turns, i + turns[i].1)
  {
  }

  /** The turn at `k` accounts for exactly the tokens the cursor moves past. */
  ghost predicate CoversAt(tokens: seq<string>, turns: seq<(Unit, nat)>, k: nat)
    requires k < |turns|
  {
    turns[k].0.Covered() == Slice(tokens, k, k + turns[k].1)
  }

  /** A walk whose every turn accounts for the tokens it moves past
      accounts for all tokens from its start, in order. */
  lemma {:induction false} WalkCoverage(tokens: seq<string>, turns: seq<(Unit, nat)>, i: nat)
    requires Advancing(turns) && |turns| == |tokens|
    requires forall k :: 0 <= k < |turns| ==> CoversAt(tokens, turns, k)
    ensures Coverage(Walk(turns, i)) == Slice(tokens, i, |tokens|)
    decreases |turns| - i
  {
    if i < |turns| {
      assert CoversAt(tokens, turns, i);
      WalkCoverage(tokens, turns, i + turns[i].1);
      WalkCoverStep(tokens, turns, i, Walk(turns, i + turns[i].1));
    } else {
      assert Walk(turns, i) == [];
      assert Slice(tokens, i, |tokens|) == [];
    }
  }

  lemma WalkCoverStep(tokens: seq<string>, turns: seq<(Unit, nat)>, i: nat, rest: seq<Unit>)
    requires Advancing(turns) && |turns| == |tokens| && i < |turns|
    requires CoversAt(tokens, turns, i)
    requires rest == Walk(turns, i + turns[i].1)
    requires Coverage(rest) == Slice(tokens, i + turns[i].1, |tokens|)
    ensures Coverage(Walk(turns, i)) == Slice(tokens, i, |tokens|)
  {
    WalkUnfold(turns, i);
    CoverageStep(tokens, i, turns[i].1, turns[i].0, rest);
  }

  /** A walk through good turns yields good units only. */
  lemma {:induction false} WalkOk(env: Env, turns: seq<(Unit, nat)>, i: nat)
    requires Advancing(turns)
    requires forall k :: 0 <= k < |turns| ==> UnitOk(env, turns[k].0)
    ensures forall k :: 0 <= k < |Walk(turns, i)| ==> UnitOk(env, Walk(turns, i)[k])
    decreases |turns| - i
  {
    if i < |turns| {
      WalkOk(env, turns, i + turns[i].1);
      AllOkCons(env, turns[i].0, Walk(turns, i + turns[i].1));
    }
  }

  /** The units account for the remaining tokens exactly, in order. */
  lemma UnitsCoverage(env: Env, vocab: set<string>, tokens: seq<string>, i: nat)
    requires forall k :: 0 <= k < |tokens| ==> tokens[k] != []
    ensures Coverage(Units(env, vocab, tokens, i)) == Slice(tokens, i, |tokens|)
  {
    var turns := Turns(env, vocab, tokens);
    forall k | 0 <= k < |turns|
      ensures CoversAt(tokens, turns, k)
    {
      StepCovers(env, vocab, tokens, k);
    }
    WalkCoverage(tokens, turns, i);
  }

  /** A unit covering the tokens from `i` up to `i + k`, followed by units
      covering the rest, covers everything from `i`. */
  lemma CoverageStep(tokens: seq<string>, i: nat, k: nat, u: Unit, rest: seq<Unit>)
    requires i <= |tokens|
    requires u.Covered() == Slice(tokens, i, i + k)
    requires Coverage(rest) == Slice(tokens, i + k, |tokens|)
    ensures Coverage([u] + rest) == Slice(tokens, i, |tokens|)
  {
    calc {
      Coverage([u] + rest);
    == { CoverageCons(u, rest); }
      u.Covered() + Coverage(rest);
    ==
      Slice(tokens, i, i + k) + Slice(tokens, i + k, |tokens|);
    == { SliceSplit(tokens, i, i + k); }
      Slice(tokens, i, |tokens|);
    }
  }

  /** Every unit of the walk satisfies `UnitOk`. */
  lemma UnitsOk(env: Env, vocab: set<string>, tokens: seq<string>, i: nat)
    requires forall k :: 0 <= k < |tokens| ==> tokens[k] != []
    ensures forall k :: 0 <= k < |Units(env, vocab, tokens, i)| ==> UnitOk(env, Units(env, vocab, tokens, i)[k])
  {
    var turns := Turns(env, vocab, tokens);
    forall k | 0 <= k < |turns|
      ensures UnitOk(env, turns[k].0)
    {
      StepOk(env, vocab, tokens, k);
    }
    WalkOk(env, turns, i);
  }

  lemma AllOkCons(env: Env, u: Unit, rest: seq<Unit>)
    requires UnitOk(env, u)
    requires forall k :: 0 <= k < |rest| ==> UnitOk(env, rest[k])
    ensures forall k :: 0 <= k < |[u] + rest| ==> UnitOk(env, ([u] + rest)[k])
  {
    forall k | 0 <= k < |[u] + rest| ensures UnitOk(env, ([u] + rest)[k]) {
      if k > 0 {
        assert ([u] + rest)[k] == rest[k - 1];
      }
    }
  }

  /** The tokens a list of units accounts for, in order. */
  function Coverage(units: seq<Unit>): seq<string>
    decreases |units|
  {
    if units == [] then [] else units[0].Covered() + Coverage(units[1..])
  }

  lemma CoverageCons(u: Unit, rest: seq<Unit>)
    ensures Coverage([u] + rest) == u.Covered() + Coverage(rest)
  {
    assert ([u] + rest)[1..] == rest;
  }

  /** Two adjacent Python slices make one. */
  lemma SliceSplit(tokens: seq<string>, i: nat, j: nat)
    requires i <= j && i <= |tokens|
    ensures Slice(tokens, i, j) + Slice(tokens, j, |tokens|) == Slice(tokens, i, |tokens|)
  {
    if j <= |tokens| {
      assert tokens[i..j] + tokens[j..] == tokens[i..];
    } else {
      assert tokens[i..] + [] == tokens[i..];
    }
  }

  /** The clip groups of the resolved units, in order. */
  function Groups(units: seq<Unit>): seq<seq<Path>>
    decreases |units|
  {
    if units == [] then []
    else if units[0].Resolved() then [units[0].paths] + Groups(units[1..])
    else Groups(units[1..])
  }

  /** `translated_labels`: at most one label per unit, and none exactly
      when no unit has a clip group. */
  function Labels(units: seq<Unit>): (r: seq<string>)
    ensures |r| <= |units|
    ensures r == [] <==> Groups(units) == []
    decreases |units|
  {
    if units == [] then []
    else if units[0].Resolved() then [units[0].Label()] + Labels(units[1..])
    else Labels(units[1..])
  }

  /** `skipped`: at most one word per unit. */
  function Skips(units: seq<Unit>): (r: seq<string>)
    ensures |r| <= |units|
    decreases |units|
  {
    if units == [] then []
    else if units[0].Skipped? then [units[0].word] + Skips(units[1..])
    else Skips(units[1..])
  }

  /** What one unit appends to `mp4_paths`: its clips, then the pause when
      the pause clip exists. */
  function UnitPaths(env: Env, u: Unit): seq<Path> {
    if u.Resolved() then u.paths + (if env.usePause then [env.pausePath] else []) else []
  }

  /** `mp4_paths` before the trailing pause is removed. */
  function RawPaths(env: Env, units: seq<Unit>): seq<Path>
    decreases |units|
  {
    if units == [] then [] else UnitPaths(env, units[0]) + RawPaths(env, units[1..])
  }

  /** The trailing-pause removal after the loop: the list loses its last
      entry exactly when pauses are in use and that entry is the pause. */
  function DropTrailingPause(env: Env, paths: seq<Path>): (r: seq<Path>)
    ensures r == paths || (env.usePause && paths == r + [env.pausePath])
    ensures |r| < |paths| <==> env.usePause && paths != [] && paths[|paths| - 1] == env.pausePath
  {
    if env.usePause && paths != [] && paths[|paths| - 1] == env.pausePath then paths[..|paths| - 1]
    else paths
  }

  /** The `mp4_paths` that `process_text_to_clips` returns: the accumulated
      list, less at most one trailing pause. */
  function PlanPaths(env: Env, units: seq<Unit>): (r: seq<Path>)
    ensures r == RawPaths(env, units) || (env.usePause && RawPaths(env, units) == r + [env.pausePath])
  {
    DropTrailingPause(env, RawPaths(env, units))
  }

  /** The groups joined with one `sep` between each neighbouring pair. */
  function Intercalate<T>(groups: seq<seq<T>>, sep: T): seq<T>
    decreases |groups|
  {
    if groups == [] then []
    else if |groups| == 1 then groups[0]
    else groups[0] + [sep] + Intercalate(groups[1..], sep)
  }

  /** One turn of the loop keeps the walk split into the units done and the
      units still to come. */
  lemma WalkAdvances(turns: seq<(Unit, nat)>, i: nat, done: seq<Unit>, all: seq<Unit>, u: Unit, k: nat)
    requires Advancing(turns) && i < |turns| && turns[i] == (u, k)
    requires done + Walk(turns, i) == all
    ensures (done + [u]) + Walk(turns, i + k) == all
  {
    WalkUnfold(turns, i);
    assert (done + [u]) + Walk(turns, i + k) == done + ([u] + Walk(turns, i + k));
  }

  /** The accumulators grow by one unit at a time. */
  lemma AccumulatorsAppend(env: Env, done: seq<Unit>, u: Unit)
    ensures RawPaths(env, done + [u]) == RawPaths(env, done) + UnitPaths(env, u)
    ensures Labels(done + [u]) == Labels(done) + (if u.Resolved() then [u.Label()] else [])
    ensures Skips(done + [u]) == Skips(done) + (if u.Skipped? then [u.word] else [])
  {
    RawPathsAppend(env, done, u);
    LabelsAppend(done, u);
    SkipsAppend(done, u);
  }

  /** `mp4_paths` grows by the unit's clips and pause. */
  lemma {:induction false} RawPathsAppend(env: Env, done: seq<Unit>, u: Unit)
    ensures RawPaths(env, done + [u]) == RawPaths(env, done) + UnitPaths(env, u)
    decreases |done|
  {
    if done == [] {
      assert done + [u] == [u];
      assert [u][1..] == [];
    } else {
      assert (done + [u])[0] == done[0];
      assert (done + [u])[1..] == done[1..] + [u];
      RawPathsAppend(env, done[1..], u);
    }
  }

  /** `translated_labels` grows by the unit's label, if it has one. */
  lemma {:induction false} LabelsAppend(done: seq<Unit>, u: Unit)
    ensures Labels(done + [u]) == Labels(done) + (if u.Resolved() then [u.Label()] else [])
    decreases |done|
  {
    if done == [] {
      assert done + [u] == [u];
      assert [u][1..] == [];
    } else {
      assert (done + [u])[0] == done[0];
      assert (done + [u])[1..] == done[1..] + [u];
      LabelsAppend(done[1..], u);
    }
  }

  /** `skipped` grows by the unit's word, if it was skipped. */
  lemma {:induction false} SkipsAppend(done: seq<Unit>, u: Unit)
    ensures Skips(done + [u]) == Skips(done) + (if u.Skipped? then [u.word] else [])
    decreases |done|
  {
    if done == [] {
      assert done + [u] == [u];
      assert [u][1..] == [];
    } else {
      assert (done + [u])[0] == done[0];
      assert (done + [u])[1..] == done[1..] + [u];
      SkipsAppend(done[1..], u);
    }
  }
}

=== FILE: plan_props.dfy ===
/** Properties of the plan the cursor loop builds: the units account for
    every token once and in order, skipped words keep their order, pauses
    sit exactly between resolved units, and the single-word handling never
    looks a multi-digit number up whole (a vocabulary phrase still can). */
module PlanProps {
  import opened Chars
  import opened Strings
  import opened SignLibrary
  import opened PhraseMatch
  import opened Plan

  /** `a` is `b` with some elements left out, order kept. */
  ghost predicate IsSubsequence<T>(a: seq<T>, b: seq<T>)
    decreases |b|
  {
    if a == [] then true
    else if b == [] then false
    else (a[0] == b[0] && IsSubsequence(a[1..], b[1..])) || IsSubsequence(a, b[1..])
  }

  lemma {:induction false} SubsequenceUnderPrefix<T>(a: seq<T>, b: seq<T>, c: seq<T>)
    requires IsSubsequence(a, b)
    ensures IsSubsequence(a, c + b)
    decreases |c|
  {
    if c != [] {
      SubsequenceUnderPrefix(a, b, c[1..]);
      assert (c + b)[1..] == c[1..] + b;
    } else {
      assert c + b == b;
    }
  }

  /** The skipped words are an in-order subsequence of the tokens the
      units account for. */
  lemma {:induction false} SkipsAreSubsequence(units: seq<Unit>)
    ensures IsSubsequence(Skips(units), Coverage(units))
    decreases |units|
  {
    if units != [] {
      SkipsAreSubsequence(units[1..]);
      var u := units[0];
      if u.Skipped? {
        assert Coverage(units) == [u.word] + Coverage(units[1..]);
        assert ([u.word] + Coverage(units[1..]))[1..] == Coverage(units[1..]);
      } else {
        SubsequenceUnderPrefix(Skips(units[1..]), Coverage(units[1..]), u.Covered());
      }
    }
  }

  /** Each unit lands in exactly one of the two reports, and the resolved
      ones are exactly those with a clip group. */
  lemma {:induction false} ReportsPartitionUnits(units: seq<Unit>)
    ensures |Labels(units)| + |Skips(units)| == |units|
    ensures |Groups(units)| == |Labels(units)|
    decreases |units|
  {
    if units != [] {
      ReportsPartitionUnits(units[1..]);
    }
  }

  /** Units that each account for at least one token are no more numerous
      than the tokens. */
  lemma {:induction false} UnitsAtMostTokens(env: Env, units: seq<Unit>)
    requires forall k :: 0 <= k < |units| ==> UnitOk(env, units[k])
    ensures |units| <= |Coverage(units)|
    decreases |units|
  {
    if units != [] {
      assert UnitOk(env, units[0]);
      UnitsAtMostTokens(env, units[1..]);
    }
  }

  /** With the pause clip present, the raw path list is the clip groups
      joined by pauses, followed by one more pause when any unit resolved. */
  lemma {:induction false} RawPathsPaused(env: Env, units: seq<Unit>)
    requires env.usePause
    ensures RawPaths(env, units) ==
      (if Groups(units) == [] then [] else Intercalate(Groups(units), env.pausePath) + [env.pausePath])
    decreases |units|
  {
    if units != [] {
      RawPathsPaused(env, units[1..]);
      var u := units[0];
      if u.Resolved() {
        var rest := Groups(units[1..]);
        assert Groups(units) == [u.paths] + rest;
        assert ([u.paths] + rest)[1..] == rest;
      }
    }
  }

  /** With the pause clip present, the returned paths are the clip groups
      of the resolved units with exactly one pause between neighbours and
      none at either end. */
  lemma PlanPathsPaused(env: Env, units: seq<Unit>)
    requires env.usePause
    ensures PlanPaths(env, units) == Intercalate(Groups(units), env.pausePath)
  {
    RawPathsPaused(env, units);
    if Groups(units) != [] {
      var body := Intercalate(Groups(units), env.pausePath);
      assert (body + [env.pausePath])[..|body|] == body;
    }
  }

  /** Without the pause clip, the returned paths are the clip groups of the
      resolved units back to back. */
  lemma {:induction false} PlanPathsUnpaused(env: Env, units: seq<Unit>)
    requires !env.usePause
    ensures PlanPaths(env, units) == Flatten(Groups(units))
    decreases |units|
  {
    if units != [] {
      PlanPathsUnpaused(env, units[1..]);
      var u := units[0];
      if u.Resolved() {
        var rest := Groups(units[1..]);
        assert Groups(units) == [u.paths] + rest;
        assert ([u.paths] + rest)[1..] == rest;
        assert u.paths + [] == u.paths;
      }
    }
  }

  /** No group is empty and none holds `sep`. */
  ghost predicate GroupsAvoid<T>(groups: seq<seq<T>>, sep: T) {
    forall k :: 0 <= k < |groups| ==> groups[k] != [] && sep !in groups[k]
  }

  /** Joining non-empty groups free of `sep` puts exactly one `sep`
      between neighbours: the result holds `sep` exactly (groups - 1) times,
      is empty only for no groups, and never ends with `sep`. */
  lemma {:induction false} IntercalateCount<T>(groups: seq<seq<T>>, sep: T)
    requires GroupsAvoid(groups, sep)
    ensures groups != [] ==> multiset(Intercalate(groups, sep))[sep] == |groups| - 1
    ensures Intercalate(groups, sep) == [] <==> groups == []
    ensures Intercalate(groups, sep) != [] ==> Intercalate(groups, sep)[|Intercalate(groups, sep)| - 1] != sep
    decreases |groups|
  {
    if |groups| == 1 {
      assert multiset(groups[0])[sep] == 0;
      assert groups[0][|groups[0]| - 1] in groups[0];
    } else if |groups| > 1 {
      IntercalateCount(groups[1..], sep);
      assert groups[1..][0] == groups[1];
      var rest := Intercalate(groups[1..], sep);
      assert Intercalate(groups, sep) == groups[0] + [sep] + rest;
      assert multiset(groups[0])[sep] == 0;
      assert multiset(groups[0] + [sep] + rest) == multiset(groups[0]) + multiset([sep]) + multiset(rest);
    }
  }

  /** The pause file is never one of the library's clips, nor the zero
      clip. */
  ghost predicate LibraryAvoidsPause(env: Env) {
    && (forall t :: env.pausePath !in env.lookup(t))
    && (env.zeroExists ==> env.zeroPath != env.pausePath)
  }

  lemma GroupsAvoidPause(env: Env, units: seq<Unit>)
    requires LibraryAvoidsPause(env)
    requires forall k :: 0 <= k < |units| ==> UnitOk(env, units[k])
    ensures GroupsAvoid(Groups(units), env.pausePath)
    decreases |units|
  {
    if units != [] {
      GroupsAvoidPause(env, units[1..]);
      var u := units[0];
      assert UnitOk(env, u);
      if u.Resolved() {
        var rest := Groups(units[1..]);
        assert Groups(units) == [u.paths] + rest;
      }
    }
  }

  /** Pause accounting, assuming the library's clips are not the pause file:
      with the pause clip, the plan holds one pause fewer than there are
      resolved units and does not end with a pause; without it, no pause is
      inserted at all. Either way the plan is empty exactly when no unit was
      resolved. */
  lemma PauseAccounting(env: Env, units: seq<Unit>)
    requires LibraryAvoidsPause(env)
    requires forall k :: 0 <= k < |units| ==> UnitOk(env, units[k])
    ensures env.usePause && Labels(units) != [] ==>
      multiset(PlanPaths(env, units))[env.pausePath] == |Labels(units)| - 1
    ensures env.usePause && PlanPaths(env, units) != [] ==>
      PlanPaths(env, units)[|PlanPaths(env, units)| - 1] != env.pausePath
    ensures !env.usePause ==> env.pausePath !in PlanPaths(env, units)
    ensures PlanPaths(env, units) == [] <==> Labels(units) == []
  {
    GroupsAvoidPause(env, units);
    ReportsPartitionUnits(units);
    var gs := Groups(units);
    if env.usePause {
      PlanPathsPaused(env, units);
      IntercalateCount(gs, env.pausePath);
    } else {
      PlanPathsUnpaused(env, units);
      FlattenAvoids(gs, env.pausePath);
    }
  }

  lemma {:induction false} FlattenAvoids<T>(groups: seq<seq<T>>, sep: T)
    requires GroupsAvoid(groups, sep)
    ensures sep !in Flatten(groups)
    ensures Flatten(groups) == [] <==> groups == []
    decreases |groups|
  {
    if groups != [] {
      FlattenAvoids(groups[1..], sep);
    }
  }

  /** The plan is empty exactly when no unit was resolved, whatever the
      library answers: every resolved unit carries a clip. */
  lemma PlanEmptyIffNothingResolved(env: Env, units: seq<Unit>)
    requires forall k :: 0 <= k < |units| ==> UnitOk(env, units[k])
    ensures PlanPaths(env, units) == [] <==> Labels(units) == []
  {
    NonEmptyGroups(env, units);
    ReportsPartitionUnits(units);
    if env.usePause {
      PlanPathsPaused(env, units);
      NonEmptyIntercalate(Groups(units), env.pausePath);
    } else {
      PlanPathsUnpaused(env, units);
      NonEmptyFlatten(Groups(units));
    }
  }

  lemma {:induction false} NonEmptyGroups(env: Env, units: seq<Unit>)
    requires forall k :: 0 <= k < |units| ==> UnitOk(env, units[k])
    ensures forall k :: 0 <= k < |Groups(units)| ==> Groups(units)[k] != []
    decreases |units|
  {
    if units != [] {
      NonEmptyGroups(env, units[1..]);
      assert UnitOk(env, units[0]);
    }
  }

  lemma NonEmptyIntercalate<T>(groups: seq<seq<T>>, sep: T)
    requires forall k :: 0 <= k < |groups| ==> groups[k] != []
    ensures Intercalate(groups, sep) == [] <==> groups == []
  {
  }

  lemma NonEmptyFlatten<T>(groups: seq<seq<T>>)
    requires forall k :: 0 <= k < |groups| ==> groups[k] != []
    ensures Flatten(groups) == [] <==> groups == []
  {
  }

  /** `lookup` changed at one key only. */
  function Override(lookup: string -> seq<Path>, key: string, value: seq<Path>): string -> seq<Path> {
    t => if t == key then value else lookup(t)
  }

  lemma {:induction false} DigitSpellingIgnores(env: Env, word: string, key: string, value: seq<Path>)
    requires forall k :: 0 <= k < |word| ==> IsDigit(word[k])
    requires |key| > 1
    ensures SpellWord(env, word) == SpellWord(env.(lookup := Override(env.lookup, key, value)), word)
    decreases |word|
  {
    if word != [] {
      assert IsDigit(word[0]);
      DigitSpellingIgnores(env, word[1..], key, value);
    }
  }

  /** The single-word handling never looks a multi-digit token up whole: it
      gives the same unit whatever the library would answer for the whole
      token, and that unit is its spelling (labelled by its `+`-joined
      digits) or a skip. The phrase branch, which comes first, still can
      (`MultiDigitPhraseExample`). */
  lemma MultiDigitNeverWhole(env: Env, word: string, value: seq<Path>)
    requires IsDigitWord(word) && |word| > 1
    ensures WordStep(env, word) == WordStep(env.(lookup := Override(env.lookup, word, value)), word)
    ensures WordStep(env, word).SpelledOut? || WordStep(env, word).Skipped?
    ensures WordStep(env, word).Resolved() ==> WordStep(env, word).Label() == PlusLabel(word)
    ensures WordStep(env, word).word == word
  {
    DigitSpellingIgnores(env, word, word, value);
  }

  /** A vocabulary phrase whose library lookup yields nothing falls through
      to the single-word handling of the token under the cursor, which then
      moves by one. */
  lemma PhraseFallsThrough(env: Env, vocab: set<string>, tokens: seq<string>, i: nat)
    requires i < |tokens| && tokens[i] != []
    requires var m := MaxPhraseMatch(vocab, tokens, i); m.0.Some? && env.lookup(m.0.value) == []
    ensures Step(env, vocab, tokens, i) == (WordStep(env, tokens[i]), 1)
  {
  }

  /** A multi-digit number that is itself in the vocabulary is found whole
      through the phrase branch, before the single-word handling is reached. */
  lemma MultiDigitPhraseExample()
    ensures Step(Env(t => if t == "20" then ["v"] else [], "P", false, "Z", false), {"20"}, ["20"], 0).0
      == WholeMatch("20", ["20"], ["v"])
  {
  }
}

=== FILE: service.dfy ===
/** `process_text_to_clips` as the source writes it, a cursor loop over the
    tokens with three accumulators, and the result record of
    `text_to_sign_video`. Clip composition (moviepy, `uuid` file naming,
    `mkdir`) is an oracle. */
module SignService {
  import opened Strings
  import opened Wrappers
  import opened SignText
  import opened SignLibrary
  import opened PhraseMatch
  import opened Plan
  import opened PlanProps

  /** The cursor loop. The outputs are the plan of the units the functional
      walk produces; the skipped words are an in-order subsequence of the
      tokens; there are no more reports than tokens; the paths are empty
      exactly when nothing was translated; and the paths are the resolved
      clip groups joined by single pauses (pause clip present) or back to
      back (pause clip absent). */
  method ProcessTextToClips(env: Env, vocab: set<string>, text: string)
    returns (mp4Paths: seq<Path>, translatedLabels: seq<string>, skipped: seq<string>)
    ensures var tokens := Tokenize(text);
      var units := Units(env, vocab, tokens, 0);
      && mp4Paths == PlanPaths(env, units)
      && translatedLabels == Labels(units)
      && skipped == Skips(units)
      && Coverage(units) == tokens
      && (env.usePause ==> mp4Paths == Intercalate(Groups(units), env.pausePath))
      && (!env.usePause ==> mp4Paths == Flatten(Groups(units)))
    ensures IsSubsequence(skipped, Tokenize(text))
    ensures |translatedLabels| + |skipped| <= |Tokenize(text)|
    ensures mp4Paths == [] <==> translatedLabels == []
  {
    var tokens := Tokenize(text);
    TokensNonEmpty(text);
    mp4Paths, translatedLabels, skipped := WalkTokens(env, vocab, tokens);
    PlanFacts(env, vocab, text);
  }

  /** The cursor loop and the trailing-pause removal after it, over the
      cleaned tokens: the three lists end up holding the plan of the units
      of the walk. */
  method WalkTokens(env: Env, vocab: set<string>, tokens: seq<string>)
    returns (mp4Paths: seq<Path>, translatedLabels: seq<string>, skipped: seq<string>)
    requires forall k :: 0 <= k < |tokens| ==> tokens[k] != []
    ensures var units := Units(env, vocab, tokens, 0);
      && mp4Paths == PlanPaths(env, units)
      && translatedLabels == Labels(units)
      && skipped == Skips(units)
  {
    mp4Paths, translatedLabels, skipped := Accumulate(env, vocab, tokens);
    if env.usePause && mp4Paths != [] && mp4Paths[|mp4Paths| - 1] == env.pausePath {
      mp4Paths := mp4Paths[..|mp4Paths| - 1];
    }
  }

  /** The `while` loop itself: its three accumulators end up holding the
      clips, labels and skips of the units of the walk, with a pause after
      every resolved unit when pauses are in use. */
  method Accumulate(env: Env, vocab: set<string>, tokens: seq<string>)
    returns (mp4Paths: seq<Path>, translatedLabels: seq<string>, skipped: seq<string>)
    requires forall k :: 0 <= k < |tokens| ==> tokens[k] != []
    ensures var units := Units(env, vocab, tokens, 0);
      && mp4Paths == RawPaths(env, units)
      && translatedLabels == Labels(units)
      && skipped == Skips(units)
  {
    translatedLabels := [];
    skipped := [];
    mp4Paths := [];
    ghost var done: seq<Unit> := [];
    ghost var turns := TurnTable(env, vocab, tokens);
    ghost var all := Walk(turns, 0);

    var i: nat := 0;
    assert done + Walk(turns, i) == all;
    while i < |tokens|
      invariant done + Walk(turns, i) == all
      invariant mp4Paths == RawPaths(env, done)
      invariant translatedLabels == Labels(done)
      invariant skipped == Skips(done)
      decreases |tokens| - i
    {
      ghost var u := turns[i].0;
      var paths, labels, skips, advance := TableTurn(env, vocab, tokens, turns, i);
      ghost var next := done + [u];
      assert next + Walk(turns, i + advance) == all by {
        WalkAdvances(turns, i, done, all, u, advance);
      }
      AccumulatorsAppend(env, done, u);
      mp4Paths := mp4Paths + paths;
      translatedLabels := translatedLabels + labels;
      skipped := skipped + skips;
      done := next;
      i := i + advance;
    }

    assert Walk(turns, i) == [];
    assert done == all;
    TableWalk(env, vocab, tokens, turns);
    assert done == Units(env, vocab, tokens, 0);
  }

  /** `Turn`, read against the table of turns, so that the loop never has
      to unfold `Step` itself. */
  method TableTurn(env: Env, vocab: set<string>, tokens: seq<string>, ghost turns: seq<(Unit, nat)>, i: nat)
    returns (paths: seq<Path>, labels: seq<string>, skips: seq<string>, advance: nat)
    requires forall k :: 0 <= k < |tokens| ==> tokens[k] != []
    requires IsTurnTable(env, vocab, tokens, turns) && i < |tokens|
    ensures advance == turns[i].1
    ensures paths == UnitPaths(env, turns[i].0)
    ensures labels == (if turns[i].0.Resolved() then [turns[i].0.Label()] else [])
    ensures skips == (if turns[i].0.Skipped? then [turns[i].0.word] else [])
  {
    assert turns[i] == Step(env, vocab, tokens, i);
    paths, labels, skips, advance := Turn(env, vocab, tokens, i);
  }

  /** One turn of the cursor loop at `i`: what it adds to the three
      accumulators is the plan of the unit `Step` gives there, and the
      cursor moves as far as `Step` says. */
  method Turn(env: Env, vocab: set<string>, tokens: seq<string>, i: nat)
    returns (paths: seq<Path>, labels: seq<string>, skips: seq<string>, advance: nat)
    requires i < |tokens| && tokens[i] != []
    ensures var s := Step(env, vocab, tokens, i);
      && advance == s.1
      && paths == UnitPaths(env, s.0)
      && labels == (if s.0.Resolved() then [s.0.Label()] else [])
      && skips == (if s.0.Skipped? then [s.0.word] else [])
  {
    var m := MaxPhraseMatch(vocab, tokens, i);
    var phrase := m.0;
    var size := m.1;

    if phrase.Some? && phrase.value != [] {
      var whole := TryWholeToken(env, phrase.value);
      if whole.Some? {
        StepOnPhrase(env, vocab, tokens, i);
        paths := whole.value;
        if env.usePause {
          paths := paths + [env.pausePath];
        }
        labels, skips, advance := [phrase.value], [], size;
        return;
      }
    }

    var word := tokens[i];
    StepOnWord(env, vocab, tokens, i);
    paths, labels, skips := ResolveWord(env, word);
    advance := 1;
  }

  /** The single-word part of one loop turn, for a token that did not
      start a vocabulary phrase with clips: what it adds to the three
      accumulators is the unit `WordStep` gives for it. */
  method ResolveWord(env: Env, word: string) returns (paths: seq<Path>, labels: seq<string>, skips: seq<string>)
    ensures var u := WordStep(env, word);
      && paths == UnitPaths(env, u)
      && labels == (if u.Resolved() then [u.Label()] else [])
      && skips == (if u.Skipped? then [u.word] else [])
  {
    paths, labels, skips := [], [], [];
    if IsDigitWord(word) && |word| > 1 {
      var spelled := SpellWord(env, word);
      if spelled.Some? {
        paths := spelled.value;
        if env.usePause {
          paths := paths + [env.pausePath];
        }
        labels := [PlusLabel(word)];
      } else {
        skips := [word];
      }
      return;
    }

    var whole := TryWholeToken(env, word);
    if whole.Some? {
      paths := whole.value;
      if env.usePause {
        paths := paths + [env.pausePath];
      }
      labels := [word];
      return;
    }

    var spelled := SpellWord(env, word);
    if spelled.Some? {
      paths := spelled.value;
      if env.usePause {
        paths := paths + [env.pausePath];
      }
      labels := [PlusLabel(word)];
      return;
    }

    skips := [word];
  }

  /** The facts `ProcessTextToClips` promises about the walk's plan. */
  lemma PlanFacts(env: Env, vocab: set<string>, text: string)
    ensures forall k :: 0 <= k < |Tokenize(text)| ==> Tokenize(text)[k] != []
    ensures var tokens := Tokenize(text);
      var units := Units(env, vocab, tokens, 0);
      && Coverage(units) == tokens
      && (env.usePause ==> PlanPaths(env, units) == Intercalate(Groups(units), env.pausePath))
      && (!env.usePause ==> PlanPaths(env, units) == Flatten(Groups(units)))
      && IsSubsequence(Skips(units), tokens)
      && |Labels(units)| + |Skips(units)| <= |tokens|
      && (PlanPaths(env, units) == [] <==> Labels(units) == [])
  {
    TokensNonEmpty(text);
    UnitsFacts(env, vocab, Tokenize(text));
  }

  /** The facts of `PlanFacts` for any list of non-empty tokens. */
  lemma UnitsFacts(env: Env, vocab: set<string>, tokens: seq<string>)
    requires forall k :: 0 <= k < |tokens| ==> tokens[k] != []
    ensures var units := Units(env, vocab, tokens, 0);
      && Coverage(units) == tokens
      && (env.usePause ==> PlanPaths(env, units) == Intercalate(Groups(units), env.pausePath))
      && (!env.usePause ==> PlanPaths(env, units) == Flatten(Groups(units)))
      && IsSubsequence(Skips(units), tokens)
      && |Labels(units)| + |Skips(units)| <= |tokens|
      && (PlanPaths(env, units) == [] <==> Labels(units) == [])
  {
    var units := Units(env, vocab, tokens, 0);
    UnitsOk(env, vocab, tokens, 0);
    UnitsCoverage(env, vocab, tokens, 0);
    assert Coverage(units) == tokens;
    if env.usePause {
      PlanPathsPaused(env, units);
    } else {
      PlanPathsUnpaused(env, units);
    }
    SkipsAreSubsequence(units);
    ReportsPartitionUnits(units);
    UnitsAtMostTokens(env, units);
    PlanEmptyIffNothingResolved(env, units);
  }

  lemma TokensNonEmpty(text: string)
    ensures forall k :: 0 <= k < |Tokenize(text)| ==> Tokenize(text)[k] != []
  {
    var tokens := Tokenize(text);
    forall k | 0 <= k < |tokens| ensures tokens[k] != [] {
      assert IsCleanPiece(tokens[k]);
    }
  }

  /** What the clip composer (load, concatenate, encode to a fresh file)
      does with a path list: it writes a video and gives its path, or it
      raises. */
  datatype Composition = Composed(videoPath: string) | Crashed(message: string)

  /** The record `text_to_sign_video` returns. */
  datatype TranslationResult = TranslationResult(
    success: bool,
    videoPath: Option<string>,
    skippedWords: seq<string>,
    translatedWords: seq<string>,
    error: Option<string>)

  const NoWordsMessage: string := "No translatable words found."

  /** The result shaping of `text_to_sign_video` once the clips are known:
      no clips gives the "nothing to translate" failure with both reports;
      a composer failure gives a failure with both reports emptied and the
      exception text; otherwise success with the video path and both
      reports. */
  function ShapeResult(mp4s: seq<Path>, translated: seq<string>, skipped: seq<string>,
                       compose: seq<Path> -> Composition): (r: TranslationResult)
    ensures r.success <==> mp4s != [] && compose(mp4s).Composed?
    ensures r.success ==> r.videoPath == Some(compose(mp4s).videoPath) && r.error.None?
    ensures !r.success ==> r.videoPath.None? && r.error.Some?
    ensures mp4s == [] ==> r.error == Some(NoWordsMessage) && r.skippedWords == skipped && r.translatedWords == translated
    ensures mp4s != [] && compose(mp4s).Crashed? ==>
      r.error == Some(compose(mp4s).message) && r.skippedWords == [] && r.translatedWords == []
    ensures mp4s != [] && compose(mp4s).Composed? ==> r.skippedWords == skipped && r.translatedWords == translated
  {
    if mp4s == [] then
      TranslationResult(false, None, skipped, translated, Some(NoWordsMessage))
    else
      match compose(mp4s)
      case Composed(path) => TranslationResult(true, Some(path), skipped, translated, None)
      case Crashed(message) => TranslationResult(false, None, [], [], Some(message))
  }

  /** `text_to_sign_video`. It reports "No translatable words found."
      exactly when no unit was resolved (with the skipped words kept), and
      success exactly when something was resolved and the composer
      succeeded, in which case the video is the composer's output; a
      composer failure empties both reports and passes on its message. */
  method TextToSignVideo(env: Env, vocab: set<string>, text: string, compose: seq<Path> -> Composition)
    returns (r: TranslationResult)
    ensures var units := Units(env, vocab, Tokenize(text), 0);
      && (Labels(units) == [] ==> r == TranslationResult(false, None, Skips(units), [], Some(NoWordsMessage)))
      && (r.success <==> Labels(units) != [] && compose(PlanPaths(env, units)).Composed?)
      && (r.success ==> r.translatedWords == Labels(units) && r.skippedWords == Skips(units))
      && (Labels(units) != [] && !r.success ==> r.translatedWords == [] && r.skippedWords == [])
      && var paths := PlanPaths(env, units);
         && (r.success ==> r.videoPath == Some(compose(paths).videoPath) && r.error.None?)
         && (paths != [] && compose(paths).Crashed? ==> r.error == Some(compose(paths).message))
  {
    var mp4s, translated, skipped := ProcessTextToClips(env, vocab, text);
    r := ShapeResult(mp4s, translated, skipped, compose);
  }
}

=== FILE: sign_library.dfy ===
/** The asset tiers of the sign service: whole tokens, letters (single-handed
    first, double-handed second), digits (own clip, then the local zero clip
    for `0`) and all-or-nothing spelling of one word. The sign library and the
    file system are an oracle held in `Env`. */
module SignLibrary {
  import opened Chars
  import opened Strings
  import opened Wrappers

  /** A clip file path; opaque to the pipeline. */
  type Path = string

  /** What the pipeline may ask of its surroundings.
      `lookup(t)` is the list of clip paths the sign library yields for the
      text `t` (`_MODEL.translate` followed by `collect_mp4_paths`); an
      exception inside the library reads as the empty list.
      `usePause` says whether `Pause.mp4` exists next to the service and
      `zeroExists` whether the local `0.mp4` does; `pausePath` and
      `zeroPath` are those two files. */
  datatype Env = Env(
    lookup: string -> seq<Path>,
    pausePath: Path,
    usePause: bool,
    zeroPath: Path,
    zeroExists: bool)

  /** `try_whole_token`: the library's clips for `token`, or `None` when it
      has none. */
  function TryWholeToken(env: Env, token: string): (r: Option<seq<Path>>)
    ensures r.Some? <==> env.lookup(token) != []
    ensures r.Some? ==> r.value == env.lookup(token)
  {
    var paths := env.lookup(token);
    if paths != [] then Some(paths) else None
  }

  /** The dataset token of the single-handed sign for a letter. */
  function SingleToken(letter: char): string {
    [letter] + "(single-handed-letter)"
  }

  /** The dataset token of the double-handed sign for a letter. */
  function DoubleToken(letter: char): string {
    [letter] + "(double-handed-letter)"
  }

  /** `letter_token`: the single-handed token whenever it has clips, the
      double-handed one only when the single-handed one has none, and
      `None` when neither has clips. */
  function LetterToken(env: Env, letter: char): (r: Option<string>)
    ensures env.lookup(SingleToken(letter)) != [] ==> r == Some(SingleToken(letter))
    ensures (env.lookup(SingleToken(letter)) == [] && env.lookup(DoubleToken(letter)) != [])
      ==> r == Some(DoubleToken(letter))
    ensures r.None? <==> env.lookup(SingleToken(letter)) == [] && env.lookup(DoubleToken(letter)) == []
    ensures r.Some? ==> env.lookup(r.value) != []
  {
    if env.lookup(SingleToken(letter)) != [] then Some(SingleToken(letter))
    else if env.lookup(DoubleToken(letter)) != [] then Some(DoubleToken(letter))
    else None
  }

  /** The clips for one digit inside `try_spell_word`: the digit's own clips
      when the library has them; otherwise, for `0` only, the local zero
      clip when that file exists; otherwise none. */
  function DigitClips(env: Env, digit: char): (r: Option<seq<Path>>)
    requires IsDigit(digit)
    ensures env.lookup([digit]) != [] ==> r == Some(env.lookup([digit]))
    ensures env.lookup([digit]) == [] ==> (r.Some? <==> digit == '0' && env.zeroExists)
    ensures env.lookup([digit]) == [] && r.Some? ==> r.value == [env.zeroPath]
  {
    match TryWholeToken(env, [digit])
    case Some(paths) => Some(paths)
    case None =>
      if digit == '0' && env.zeroExists then Some([env.zeroPath]) else None
  }

  /** The clips for one letter inside `try_spell_word`: ask `letter_token`
      for a token, then look that token up again. The result is the
      single-handed clips if any, else the double-handed clips if any, else
      none: the second lookup never fails because the oracle is a function. */
  function LetterClips(env: Env, letter: char): (r: Option<seq<Path>>)
    ensures env.lookup(SingleToken(letter)) != [] ==> r == Some(env.lookup(SingleToken(letter)))
    ensures (env.lookup(SingleToken(letter)) == [] && env.lookup(DoubleToken(letter)) != [])
      ==> r == Some(env.lookup(DoubleToken(letter)))
    ensures r.None? <==> env.lookup(SingleToken(letter)) == [] && env.lookup(DoubleToken(letter)) == []
  {
    match LetterToken(env, letter)
    case None => None
    case Some(token) =>
      var paths := env.lookup(token);
      if paths == [] then None else Some(paths)
  }

  /** The characters `try_spell_word` accepts: `[a-z0-9]`. */
  predicate IsSpellable(c: char) {
    IsLower(c) || IsDigit(c)
  }

  /** The clips for one character of a spelled word. Characters outside
      `[a-z0-9]` have none; a digit goes to the digit lookup and a lower-case
      letter to the letter lookup; a character that has clips has at least
      one. */
  function CharClips(env: Env, c: char): (r: Option<seq<Path>>)
    ensures !IsSpellable(c) ==> r.None?
    ensures IsDigit(c) ==> r == DigitClips(env, c)
    ensures IsLower(c) ==> r == LetterClips(env, c)
    ensures r.Some? ==> r.value != []
  {
    if !IsSpellable(c) then None
    else if IsDigit(c) then DigitClips(env, c)
    else LetterClips(env, c)
  }

  /** `try_spell_word`: the clips of every character in turn, or `None` as
      soon as one character has none; on success every character
      contributes at least one clip. */
  function SpellWord(env: Env, word: string): (r: Option<seq<Path>>)
    ensures r.Some? ==> |r.value| >= |word|
    decreases |word|
  {
    if word == [] then Some([])
    else
      match CharClips(env, word[0])
      case None => None
      case Some(head) =>
        match SpellWord(env, word[1..])
        case None => None
        case Some(tail) => Some(head + tail)
  }

  /** All or nothing: spelling fails exactly when some character has no
      clip, and in particular whenever some character lies outside
      `[a-z0-9]`. */
  lemma {:induction false} SpellWordAllOrNothing(env: Env, word: string)
    ensures SpellWord(env, word).None? <==> exists k :: 0 <= k < |word| && CharClips(env, word[k]).None?
    ensures (exists k :: 0 <= k < |word| && !IsSpellable(word[k])) ==> SpellWord(env, word).None?
    decreases |word|
  {
    if word != [] {
      SpellWordAllOrNothing(env, word[1..]);
      if CharClips(env, word[0]).Some? && SpellWord(env, word[1..]).None? {
        var j :| 0 <= j < |word[1..]| && CharClips(env, word[1..][j]).None?;
        assert word[1..][j] == word[j + 1];
      }
      if SpellWord(env, word).Some? {
        forall k | 0 <= k < |word| ensures CharClips(env, word[k]).Some? {
          if k > 0 {
            assert word[k] == word[1..][k - 1];
          }
        }
      }
    }
  }

  /** The clips of each character of `word`, in order (empty for a character
      without clips). */
  function ClipsPerChar(env: Env, word: string): (r: seq<seq<Path>>)
    ensures |r| == |word|
  {
    seq(|word|, k requires 0 <= k < |word| =>
      match CharClips(env, word[k]) case Some(p) => p case None => [])
  }

  /** A spelled word's clips are the in-order concatenation of its
      characters' clips. */
  lemma {:induction false} SpellWordInOrder(env: Env, word: string)
    requires SpellWord(env, word).Some?
    ensures SpellWord(env, word).value == Flatten(ClipsPerChar(env, word))
    decreases |word|
  {
    if word != [] {
      SpellWordInOrder(env, word[1..]);
      assert ClipsPerChar(env, word)[1..] == ClipsPerChar(env, word[1..]);
    }
  }

  /** The one-character strings of `word`: what Python iterates when it
      joins a string. */
  function Singletons(word: string): (r: seq<string>)
    ensures |r| == |word|
  {
    seq(|word|, k requires 0 <= k < |word| => [word[k]])
  }

  /** `"+".join(word)`: the label of a spelled word, one `+` between each
      pair of neighbouring characters. */
  function PlusLabel(word: string): (r: string)
    ensures |r| == if word == [] then 0 else 2 * |word| - 1
  {
    PlusJoinLength(word);
    Join("+", Singletons(word))
  }

  lemma {:induction false} PlusJoinLength(word: string)
    ensures |Join("+", Singletons(word))| == if word == [] then 0 else 2 * |word| - 1
    decreases |word|
  {
    if |word| > 1 {
      PlusJoinLength(word[1..]);
      assert Singletons(word)[1..] == Singletons(word[1..]);
    }
  }

  /** The label of a spelled word holds the word's characters at the even
      positions and `+` at the odd ones. */
  lemma {:induction false} PlusLabelShape(word: string)
    requires word != []
    ensures |PlusLabel(word)| == 2 * |word| - 1
    ensures forall k :: 0 <= k < |word| ==> PlusLabel(word)[2 * k] == word[k]
    ensures forall k :: 0 <= k < |word| - 1 ==> PlusLabel(word)[2 * k + 1] == '+'
    decreases |word|
  {
    if |word| > 1 {
      PlusLabelShape(word[1..]);
      assert Singletons(word)[1..] == Singletons(word[1..]);
      var tail := PlusLabel(word[1..]);
      assert PlusLabel(word) == [word[0]] + "+" + tail;
      forall k | 0 < k < |word| ensures PlusLabel(word)[2 * k] == word[k] {
        assert PlusLabel(word)[2 * k] == tail[2 * (k - 1)];
      }
      forall k | 0 < k < |word| - 1 ensures PlusLabel(word)[2 * k + 1] == '+' {
        assert PlusLabel(word)[2 * k + 1] == tail[2 * (k - 1) + 1];
      }
    }
  }

  predicate NotPlus(c: char) {
    c != '+'
  }

  /** Round trip: deleting the `+` signs from a spelled word's label gives
      the word back (spelled words hold only `[a-z0-9]`). */
  lemma {:induction false} PlusLabelRoundTrip(word: string)
    requires All(word, NotPlus)
    ensures Filter(PlusLabel(word), NotPlus) == word
    decreases |word|
  {
    if |word| > 1 {
      PlusLabelRoundTrip(word[1..]);
      assert Singletons(word)[1..] == Singletons(word[1..]);
      var tail := PlusLabel(word[1..]);
      var lbl := [word[0]] + "+" + tail;
      assert PlusLabel(word) == lbl;
      assert lbl[1..] == "+" + tail;
      assert ("+" + tail)[1..] == tail;
      assert Filter(lbl, NotPlus) == [word[0]] + Filter(lbl[1..], NotPlus);
      assert Filter("+" + tail, NotPlus) == Filter(tail, NotPlus);
      assert word == [word[0]] + word[1..];
    } else if |word| == 1 {
      assert PlusLabel(word) == [word[0]];
    }
  }
}

=== FILE: strings.dfy ===
/** The Python string operations the sign service and the vocabulary tool
    use: `strip()`, `lower()`, `split()`, `sep.join(...)` and character
    filtering, over `seq<char>` with the ASCII classes of `Chars`. */
module Strings {
  import opened Chars

  /** Every character of `s` satisfies `p`. */
  predicate All(s: string, p: char -> bool) {
    forall k :: 0 <= k < |s| ==> p(s[k])
  }

  /** No character of `s` is an ASCII upper-case letter. */
  predicate IsLowerCase(s: string) {
    forall k :: 0 <= k < |s| ==> !IsUpper(s[k])
  }

  /** No character of `s` is whitespace. */
  predicate HasNoSpace(s: string) {
    forall k :: 0 <= k < |s| ==> !IsSpace(s[k])
  }

  /** `s` neither begins nor ends with whitespace. */
  predicate NoEdgeSpace(s: string) {
    s == [] || (!IsSpace(s[0]) && !IsSpace(s[|s| - 1]))
  }

  /** `str.lstrip()`. */
  function TrimLeft(s: string): (r: string)
    ensures |r| <= |s| && r == s[|s| - |r|..]
    ensures r == [] || !IsSpace(r[0])
    ensures forall k :: 0 <= k < |s| - |r| ==> IsSpace(s[k])
    decreases |s|
  {
    if s != [] && IsSpace(s[0]) then TrimLeft(s[1..]) else s
  }

  /** `str.rstrip()`. */
  function TrimRight(s: string): (r: string)
    ensures |r| <= |s| && r == s[..|r|]
    ensures r == [] || !IsSpace(r[|r| - 1])
    ensures forall k :: |r| <= k < |s| ==> IsSpace(s[k])
    decreases |s|
  {
    if s != [] && IsSpace(s[|s| - 1]) then TrimRight(s[..|s| - 1]) else s
  }

  /** `str.strip()`: the result has no edge whitespace, keeps only
      characters of `s`, is empty exactly when `s` is all whitespace, and a
      string without edge whitespace is left alone; `StripMiddle` says it
      is the middle of `s` between a whitespace prefix and suffix. */
  function Strip(s: string): (r: string)
    ensures NoEdgeSpace(r)
    ensures |r| <= |s| && forall c :: c in r ==> c in s
    ensures r == [] <==> All(s, IsSpace)
    ensures NoEdgeSpace(s) ==> r == s
  {
    StripPieces(s);
    TrimRight(TrimLeft(s))
  }

  /** `m` is what is left of `s` once a whitespace prefix and a whitespace
      suffix are cut off. */
  ghost predicate IsMiddle(s: string, m: string) {
    exists a, b :: s == a + (m + b) && All(a, IsSpace) && All(b, IsSpace)
  }

  /** Stripping cuts whitespace off the two ends and nothing else. */
  lemma StripMiddle(s: string)
    ensures IsMiddle(s, Strip(s))
  {
    var l := TrimLeft(s);
    var r := TrimRight(l);
    var a := TrimLeftCut(s);
    var b := TrimRightCut(l);
    assert s == a + (r + b);
  }

  /** `lstrip` cuts off a whitespace prefix. */
  lemma TrimLeftCut(s: string) returns (a: string)
    ensures s == a + TrimLeft(s) && All(a, IsSpace)
  {
    var l := TrimLeft(s);
    var n := |s| - |l|;
    a := s[..n];
    assert s == a + l by {
      assert l == s[n..];
    }
    assert All(a, IsSpace) by {
      forall k | 0 <= k < |a| ensures IsSpace(a[k]) {
        assert a[k] == s[k];
      }
    }
  }

  /** `rstrip` cuts off a whitespace suffix. */
  lemma {:induction false} TrimRightCut(s: string) returns (b: string)
    ensures s == TrimRight(s) + b && All(b, IsSpace)
    decreases |s|
  {
    if s != [] && IsSpace(s[|s| - 1]) {
      var b' := TrimRightCut(s[..|s| - 1]);
      b := b' + [s[|s| - 1]];
      assert s == s[..|s| - 1] + [s[|s| - 1]];
    } else {
      b := [];
    }
  }

  lemma StripPieces(s: string)
    ensures var r := TrimRight(TrimLeft(s));
      && (forall c :: c in r ==> c in s)
      && (r == [] <==> All(s, IsSpace))
      && NoEdgeSpace(r)
  {
    StripKeepsChars(s);
    StripEmptyIff(s);
  }

  lemma StripKeepsChars(s: string)
    ensures forall c :: c in TrimRight(TrimLeft(s)) ==> c in s
  {
    var a := TrimLeftCut(s);
    var b := TrimRightCut(TrimLeft(s));
  }

  lemma StripEmptyIff(s: string)
    ensures TrimRight(TrimLeft(s)) == [] <==> All(s, IsSpace)
  {
    var l := TrimLeft(s);
    var r := TrimRight(l);
    if r == [] {
      assert l == [];
      assert forall k :: 0 <= k < |s| ==> IsSpace(s[k]);
    } else {
      assert !IsSpace(r[0]) && r[0] == l[0] && l[0] == s[|s| - |l|];
    }
  }

  /** `str.lower()` on ASCII. */
  function LowerStr(s: string): (r: string)
    ensures |r| == |s| && IsLowerCase(r)
    ensures forall k :: 0 <= k < |s| ==> r[k] == ToLower(s[k])
  {
    seq(|s|, k requires 0 <= k < |s| => ToLower(s[k]))
  }

  /** Lower-casing a string that is already lower-case changes nothing. */
  lemma LowerStrOfLowerCase(s: string)
    requires IsLowerCase(s)
    ensures LowerStr(s) == s
  {
    assert forall k :: 0 <= k < |s| ==> LowerStr(s)[k] == s[k];
  }

  /** Lower-casing commutes with the two trims and with stripping. */
  lemma {:induction false} LowerTrimLeft(s: string)
    ensures LowerStr(TrimLeft(s)) == TrimLeft(LowerStr(s))
    decreases |s|
  {
    if s != [] && IsSpace(s[0]) {
      assert LowerStr(s)[1..] == LowerStr(s[1..]);
      LowerTrimLeft(s[1..]);
    }
  }

  lemma {:induction false} LowerTrimRight(s: string)
    ensures LowerStr(TrimRight(s)) == TrimRight(LowerStr(s))
    decreases |s|
  {
    if s != [] && IsSpace(s[|s| - 1]) {
      assert LowerStr(s)[..|s| - 1] == LowerStr(s[..|s| - 1]);
      LowerTrimRight(s[..|s| - 1]);
    }
  }

  lemma LowerStrip(s: string)
    ensures LowerStr(Strip(s)) == Strip(LowerStr(s))
  {
    LowerTrimLeft(s);
    LowerTrimRight(TrimLeft(s));
  }

  /** The characters of `s` that satisfy `p`, in order. */
  function Filter(s: string, p: char -> bool): (r: string)
    ensures |r| <= |s|
    ensures All(r, p)
    ensures forall c :: c in r ==> c in s
    ensures All(s, p) ==> r == s
    decreases |s|
  {
    if s == [] then []
    else if p(s[0]) then [s[0]] + Filter(s[1..], p)
    else Filter(s[1..], p)
  }

  /** Filtering distributes over concatenation. */
  lemma {:induction false} FilterAppend(a: string, b: string, p: char -> bool)
    ensures Filter(a + b, p) == Filter(a, p) + Filter(b, p)
    decreases |a|
  {
    if a == [] {
      assert a + b == b;
    } else {
      assert (a + b)[0] == a[0];
      assert (a + b)[1..] == a[1..] + b;
      FilterAppend(a[1..], b, p);
    }
  }

  /** Filtering keeps nothing of a string none of whose characters pass. */
  lemma {:induction false} FilterNone(a: string, p: char -> bool)
    requires forall k :: 0 <= k < |a| ==> !p(a[k])
    ensures Filter(a, p) == []
    decreases |a|
  {
    if a != [] {
      FilterNone(a[1..], p);
    }
  }

  /** Filtering by a weaker test first changes nothing. */
  lemma {:induction false} FilterFilter(a: string, p: char -> bool, q: char -> bool)
    requires forall c :: q(c) ==> p(c)
    ensures Filter(Filter(a, p), q) == Filter(a, q)
    decreases |a|
  {
    if a != [] {
      FilterFilter(a[1..], p, q);
    }
  }

  /** Stripping loses none of the characters a test that rejects whitespace
      keeps. */
  lemma FilterStrip(s: string, p: char -> bool)
    requires forall c :: IsSpace(c) ==> !p(c)
    ensures Filter(Strip(s), p) == Filter(s, p)
  {
    StripMiddle(s);
    var a, b :| s == a + (Strip(s) + b) && All(a, IsSpace) && All(b, IsSpace);
    forall k | 0 <= k < |a| ensures !p(a[k]) {
      assert IsSpace(a[k]);
    }
    forall k | 0 <= k < |b| ensures !p(b[k]) {
      assert IsSpace(b[k]);
    }
    FilterAround(a, Strip(s), b, p);
  }

  /** Filtering drops a rejected prefix and a rejected suffix. */
  lemma FilterAround(a: string, m: string, b: string, p: char -> bool)
    requires forall k :: 0 <= k < |a| ==> !p(a[k])
    requires forall k :: 0 <= k < |b| ==> !p(b[k])
    ensures Filter(a + (m + b), p) == Filter(m, p)
  {
    FilterAppend(a, m + b, p);
    FilterAppend(m, b, p);
    FilterNone(a, p);
    FilterNone(b, p);
  }

  /** The longest prefix of `s` without whitespace. */
  function Word(s: string): (r: string)
    ensures |r| <= |s| && r == s[..|r|]
    ensures HasNoSpace(r)
    ensures |r| == |s| || IsSpace(s[|r|])
    decreases |s|
  {
    if s == [] || IsSpace(s[0]) then [] else [s[0]] + Word(s[1..])
  }

  /** `str.split()` with no separator: the maximal whitespace-free runs of
      `s`, in order; empty pieces never appear. */
  function Split(s: string): (r: seq<string>)
    ensures forall t :: t in r ==> t != [] && HasNoSpace(t)
    ensures forall t, c :: t in r && c in t ==> c in s
    decreases |s|
  {
    if s == [] then []
    else if IsSpace(s[0]) then Split(s[1..])
    else
      var w := Word(s);
      assert forall c :: c in w ==> c in s;
      [w] + Split(s[|w|..])
  }

  /** `sep.join(xs)`. */
  function Join(sep: string, xs: seq<string>): string
    decreases |xs|
  {
    if xs == [] then []
    else if |xs| == 1 then xs[0]
    else xs[0] + sep + Join(sep, xs[1..])
  }

  /** A join of at least one piece starts with its first piece. */
  lemma JoinHeadPrefix(ts: seq<string>)
    requires |ts| >= 1
    ensures |Join(" ", ts)| >= |ts[0]| && Join(" ", ts)[..|ts[0]|] == ts[0]
  {
  }

  /** The concatenation of all pieces of `xs`, in order. */
  function Flatten<T>(xs: seq<seq<T>>): seq<T>
    decreases |xs|
  {
    if xs == [] then [] else xs[0] + Flatten(xs[1..])
  }

  lemma FlattenAppend<T>(xs: seq<seq<T>>, ys: seq<seq<T>>)
    ensures Flatten(xs + ys) == Flatten(xs) + Flatten(ys)
    decreases |xs|
  {
    if xs != [] {
      assert (xs + ys)[0] == xs[0];
      assert (xs + ys)[1..] == xs[1..] + ys;
      FlattenAppend(xs[1..], ys);
    } else {
      assert xs + ys == ys;
    }
  }

  /** The word at the head of a whitespace-free piece followed by more text
      is that piece. */
  lemma {:induction false} WordOfPiece(t: string, rest: string)
    requires HasNoSpace(t)
    requires rest == [] || IsSpace(rest[0])
    ensures Word(t + rest) == t
    decreases |t|
  {
    var s := t + rest;
    if t == [] {
      assert s == rest;
    } else {
      assert s[0] == t[0] && !IsSpace(t[0]);
      assert s[1..] == t[1..] + rest;
      assert HasNoSpace(t[1..]) by {
        forall k | 0 <= k < |t[1..]| ensures !IsSpace(t[1..][k]) {
          assert t[1..][k] == t[k + 1];
        }
      }
      WordOfPiece(t[1..], rest);
      assert Word(s) == [t[0]] + t[1..];
    }
  }

  /** Round trip: splitting the space-join of whitespace-free, non-empty
      pieces gives the pieces back. */
  lemma {:induction false} SplitJoin(ts: seq<string>)
    requires forall k :: 0 <= k < |ts| ==> ts[k] != [] && HasNoSpace(ts[k])
    ensures Split(Join(" ", ts)) == ts
    decreases |ts|
  {
    if ts == [] {
    } else if |ts| == 1 {
      var t := ts[0];
      WordOfPiece(t, []);
      assert t + [] == t;
      assert t[|t|..] == [];
    } else {
      var t := ts[0];
      var rest := " " + Join(" ", ts[1..]);
      var s := Join(" ", ts);
      assert s == t + rest;
      WordOfPiece(t, rest);
      assert s[|t|..] == rest;
      assert rest[1..] == Join(" ", ts[1..]);
      SplitJoin(ts[1..]);
      assert Split(rest) == Split(rest[1..]);
      assert Split(s) == [t] + Split(s[|t|..]);
    }
  }

  /** `re.sub(r"\s+", " ", s)`: every maximal run of whitespace becomes a
      single space; nothing else changes. Read left to right, a whitespace
      character followed by more whitespace is dropped and the last one of
      its run becomes the space. */
  function Collapse(s: string): (r: string)
    ensures r == [] <==> s == []
    decreases |s|
  {
    if s == [] then []
    else if IsSpace(s[0]) && |s| > 1 && IsSpace(s[1]) then Collapse(s[1..])
    else if IsSpace(s[0]) then " " + Collapse(s[1..])
    else [s[0]] + Collapse(s[1..])
  }

  /** A space-free piece passes through the collapse unchanged. */
  lemma {:induction false} CollapseWord(w: string, rest: string)
    requires HasNoSpace(w)
    ensures Collapse(w + rest) == w + Collapse(rest)
    decreases |w|
  {
    if w != [] {
      var s := w + rest;
      assert s[0] == w[0] && !IsSpace(s[0]);
      assert s[1..] == w[1..] + rest;
      assert Collapse(s) == [s[0]] + Collapse(s[1..]);
      CollapseWord(w[1..], rest);
      assert w == [w[0]] + w[1..];
    } else {
      assert w + rest == rest;
    }
  }

  /** Leading whitespace does not change the split. */
  lemma {:induction false} SplitTrimLeft(s: string)
    ensures Split(TrimLeft(s)) == Split(s)
    decreases |s|
  {
    if s != [] && IsSpace(s[0]) {
      SplitTrimLeft(s[1..]);
    }
  }

  /** Collapsing a string without edge whitespace is joining its words with
      single spaces. */
  lemma {:induction false} CollapseIsJoin(s: string)
    requires NoEdgeSpace(s)
    ensures Collapse(s) == Join(" ", Split(s))
    decreases |s|
  {
    if s != [] {
      var w := Word(s);
      var rest := s[|w|..];
      assert Collapse(s) == w + Collapse(rest) by {
        assert s == w + rest;
        CollapseWord(w, rest);
      }
      assert Split(s) == [w] + Split(rest);
      if rest != [] {
        var tail := TrimLeft(rest);
        calc {
          Collapse(s);
          w + Collapse(rest);
        == { SpaceRunFacts(s, w, rest, tail); }
          w + (" " + Collapse(tail));
        == { SpaceRunFacts(s, w, rest, tail); CollapseIsJoin(tail); }
          w + (" " + Join(" ", Split(tail)));
        == { SpaceRunFacts(s, w, rest, tail); JoinCons(w, Split(tail)); }
          Join(" ", [w] + Split(tail));
        == { SpaceRunFacts(s, w, rest, tail); }
          Join(" ", Split(s));
        }
      } else {
        assert Split(rest) == [];
        assert Collapse(s) == w by {
          assert w + Collapse(rest) == w + [];
        }
      }
    }
  }

  /** The whitespace run after the first word of a string without edge
      whitespace: the collapse turns it into one space and the split skips
      it, and what follows it has no edge whitespace. */
  lemma SpaceRunFacts(s: string, w: string, rest: string, tail: string)
    requires NoEdgeSpace(s) && s != [] && w == Word(s) && rest == s[|w|..] && rest != []
    requires tail == TrimLeft(rest)
    ensures |tail| < |s| && NoEdgeSpace(tail) && tail != []
    ensures Collapse(rest) == " " + Collapse(tail)
    ensures Split(rest) == Split(tail) && Split(tail) != []
  {
    assert IsSpace(rest[0]);
    assert s[|s| - 1] == rest[|rest| - 1];
    assert tail[|tail| - 1] == rest[|rest| - 1];
    SplitTrimLeft(rest);
    CollapseRun(rest);
    assert Split(tail) == [Word(tail)] + Split(tail[|Word(tail)|..]);
  }

  /** A whitespace run at the front collapses to one space. */
  lemma {:induction false} CollapseRun(s: string)
    requires s != [] && IsSpace(s[0])
    ensures Collapse(s) == " " + Collapse(TrimLeft(s))
    decreases |s|
  {
    if |s| > 1 && IsSpace(s[1]) {
      CollapseRun(s[1..]);
    }
  }

  /** Joining a word in front of at least one more word puts a space
      between them. */
  lemma JoinCons(w: string, ys: seq<string>)
    requires ys != []
    ensures Join(" ", [w] + ys) == w + (" " + Join(" ", ys))
  {
    assert ([w] + ys)[1..] == ys;
    assert w + " " + Join(" ", ys) == w + (" " + Join(" ", ys));
  }

  /** The word at the head of `a + b` is the word at the head of `a` when
      `a` holds whitespace, and all of `a` otherwise when `b` starts with
      whitespace. */
  lemma {:induction false} WordAppend(a: string, b: string)
    requires b == [] || IsSpace(b[0])
    ensures Word(a + b) == Word(a)
    decreases |a|
  {
    if a == [] {
      assert a + b == b;
    } else if IsSpace(a[0]) {
      assert (a + b)[0] == a[0];
    } else {
      assert (a + b)[0] == a[0];
      assert (a + b)[1..] == a[1..] + b;
      WordAppend(a[1..], b);
    }
  }

  /** Trailing whitespace does not change the split. */
  lemma {:induction false} SplitAppendSpaces(a: string, b: string)
    requires All(b, IsSpace)
    ensures Split(a + b) == Split(a)
    decreases |a| + |b|
  {
    if a == [] {
      assert a + b == b;
      AllSpaceSplit(b);
    } else if IsSpace(a[0]) {
      assert (a + b)[0] == a[0];
      assert (a + b)[1..] == a[1..] + b;
      SplitAppendSpaces(a[1..], b);
    } else {
      assert (a + b)[0] == a[0];
      WordAppend(a, b);
      var w := Word(a);
      assert (a + b)[|w|..] == a[|w|..] + b;
      SplitAppendSpaces(a[|w|..], b);
    }
  }

  /** An all-whitespace string splits into nothing. */
  lemma {:induction false} AllSpaceSplit(b: string)
    requires All(b, IsSpace)
    ensures Split(b) == []
    decreases |b|
  {
    if b != [] {
      AllSpaceSplit(b[1..]);
    }
  }

  /** Trailing whitespace does not change the split. */
  lemma SplitTrimRight(l: string)
    ensures Split(TrimRight(l)) == Split(l)
  {
    var r := TrimRight(l);
    var tail := l[|r|..];
    assert l == r + tail;
    assert All(tail, IsSpace) by {
      forall k | 0 <= k < |tail| ensures IsSpace(tail[k]) {
        assert tail[k] == l[|r| + k];
      }
    }
    SplitAppendSpaces(r, tail);
  }

  /** Stripping does not change the split. */
  lemma SplitStrip(s: string)
    ensures Split(Strip(s)) == Split(s)
  {
    SplitTrimLeft(s);
    SplitTrimRight(TrimLeft(s));
  }

  /** Leading whitespace does not change the split. */
  lemma {:induction false} SplitPrependSpaces(a: string, x: string)
    requires All(a, IsSpace)
    ensures Split(a + x) == Split(x)
    decreases |a|
  {
    if a != [] {
      assert (a + x)[0] == a[0] && IsSpace(a[0]);
      assert (a + x)[1..] == a[1..] + x;
      assert All(a[1..], IsSpace) by {
        forall k | 0 <= k < |a[1..]| ensures IsSpace(a[1..][k]) {
          assert a[1..][k] == a[k + 1];
        }
      }
      SplitPrependSpaces(a[1..], x);
    } else {
      assert a + x == x;
    }
  }

  /** Whitespace around a string does not change its split. */
  lemma SplitAround(a: string, m: string, b: string)
    requires All(a, IsSpace) && All(b, IsSpace)
    ensures Split(a + (m + b)) == Split(m)
  {
    SplitPrependSpaces(a, m + b);
    SplitAppendSpaces(m, b);
  }
}

=== FILE: vocab_collect.dfy ===
/** The collection loop of the vocabulary tool: walk the parsed dictionary
    mapping, gather the English strings of every token, normalise them,
    and list the distinct ones in sorted order. */
module VocabCollect {
  import opened Chars
  import opened Strings
  import opened Wrappers
  import opened VocabNorm

  /** A value as `json.load` returns it. An object keeps its members in
      document order, duplicates included; numbers are integers. */
  datatype Json =
    | JNull
    | JBool(b: bool)
    | JNum(n: int)
    | JStr(s: string)
    | JArr(items: seq<Json>)
    | JObj(members: seq<(string, Json)>)

  /** The exception that ends the script. */
  datatype Crash =
      /** `for x in v` where `v` is `None`, a bool or a number. */
    | NotIterable
      /** `v.get(...)` where `v` is not a dict. */
    | NoGetMethod

  /** The keys of a dict built from `members`, in the order iteration
      yields them: each key once, at its first occurrence. */
  function Keys(members: seq<(string, Json)>): (r: seq<string>)
    ensures forall key :: key in r <==> exists i :: 0 <= i < |members| && members[i].0 == key
    ensures forall i, j :: 0 <= i < j < |r| ==> r[i] != r[j]
    decreases |members|
  {
    if members == [] then []
    else
      var init := Keys(members[..|members| - 1]);
      var key := members[|members| - 1].0;
      assert forall i :: 0 <= i < |members| - 1 ==> members[..|members| - 1][i] == members[i];
      if key in init then init else init + [key]
  }

  /** The value the dict built from `members` holds for `key`: the last
      member with that key wins. */
  function Lookup(members: seq<(string, Json)>, key: string): (r: Option<Json>)
    ensures r.None? <==> forall i :: 0 <= i < |members| ==> members[i].0 != key
    ensures r.Some? ==> LastBinding(members, key, r.value)
    decreases |members|
  {
    if members == [] then None
    else if members[|members| - 1].0 == key then
      LastBindingAtEnd(members, key);
      Some(members[|members| - 1].1)
    else
      var n := |members| - 1;
      var rest := members[..n];
      assert forall i :: 0 <= i < n ==> rest[i] == members[i];
      var r := Lookup(rest, key);
      if r.Some? then
        LastBindingBefore(members, key, r.value);
        r
      else r
  }

  /** `(key, v)` is the last pair of `members` under `key`: a `dict` built
      from the pairs maps `key` to `v`. */
  predicate LastBinding(members: seq<(string, Json)>, key: string, v: Json) {
    exists i :: 0 <= i < |members| && members[i] == (key, v) && forall j :: i < j < |members| ==> members[j].0 != key
  }

  lemma LastBindingAtEnd(members: seq<(string, Json)>, key: string)
    requires members != [] && members[|members| - 1].0 == key
    ensures LastBinding(members, key, members[|members| - 1].1)
  {
    var i := |members| - 1;
    assert members[i] == (key, members[i].1);
  }

  lemma LastBindingBefore(members: seq<(string, Json)>, key: string, v: Json)
    requires members != [] && members[|members| - 1].0 != key
    requires LastBinding(members[..|members| - 1], key, v)
    ensures LastBinding(members, key, v)
  {
    var n := |members| - 1;
    var rest := members[..n];
    var i :| 0 <= i < n && rest[i] == (key, v) && forall j :: i < j < n ==> rest[j].0 != key;
    assert members[i] == (key, v);
    assert forall j :: i < j < |members| ==> members[j].0 != key by {
      forall j | i < j < |members| ensures members[j].0 != key {
        if j < n {
          assert rest[j] == members[j];
        }
      }
    }
  }

  /** `for x in v`: a list yields its items, a dict its keys, a string its
      characters; anything else raises. */
  function Iterate(v: Json): (r: Result<seq<Json>, Crash>)
    ensures r.Failure? <==> v.JNull? || v.JBool? || v.JNum?
    ensures v.JArr? ==> r == Success(v.items)
    ensures v.JObj? ==> |r.value| == |Keys(v.members)| && forall k :: 0 <= k < |r.value| ==> r.value[k] == JStr(Keys(v.members)[k])
    ensures v.JStr? ==> |r.value| == |v.s| && forall k :: 0 <= k < |v.s| ==> r.value[k] == JStr([v.s[k]])
  {
    match v
    case JArr(items) => Success(items)
    case JObj(members) => Success(seq(|Keys(members)|, k requires 0 <= k < |Keys(members)| => JStr(Keys(members)[k])))
    case JStr(s) => Success(seq(|s|, k requires 0 <= k < |s| => JStr([s[k]])))
    case _ => Failure(NotIterable)
  }

  /** Dict iteration yields keys in the order of their first appearance:
      any key listed before another occurs in `members` before the other's
      first occurrence. */
  lemma {:induction false} KeysInOrder(members: seq<(string, Json)>, i: nat, j: nat)
    requires i < j < |Keys(members)|
    ensures exists p :: 0 <= p < |members| && members[p].0 == Keys(members)[i] &&
                        (forall q :: 0 <= q <= p ==> members[q].0 != Keys(members)[j])
    decreases |members|
  {
    var n := |members| - 1;
    var rest := members[..n];
    var init := Keys(rest);
    assert forall q :: 0 <= q < n ==> rest[q] == members[q];
    if j < |init| {
      KeysInOrder(rest, i, j);
      var p :| 0 <= p < n && rest[p].0 == init[i] && forall q :: 0 <= q <= p ==> rest[q].0 != init[j];
      assert members[p].0 == Keys(members)[i];
    } else {
      var key := members[n].0;
      assert key !in init && Keys(members) == init + [key];
      assert init[i] in init;
      var p :| 0 <= p < n && rest[p].0 == init[i];
      assert members[p].0 == Keys(members)[i];
      forall q | 0 <= q <= p ensures members[q].0 != Keys(members)[j] {
        assert rest[q].0 in init;
      }
    }
  }

  /** `v.get(key, default)`: only a dict has `get`. */
  function Get(v: Json, key: string, default: Json): (r: Result<Json, Crash>)
    ensures r.Failure? <==> !v.JObj?
    ensures v.JObj? ==> r.value == (match Lookup(v.members, key) case Some(x) => x case None => default)
  {
    match v
    case JObj(members) =>
      (match Lookup(members, key)
       case Some(x) => Success(x)
       case None => Success(default))
    case _ => Failure(NoGetMethod)
  }

  /** `isinstance(t, str) and t.strip()`: a string that is not all
      whitespace. */
  predicate Usable(t: Json) {
    t.JStr? && Strip(t.s) != []
  }

  /** The normalised usable strings of an `en` list, in order. */
  function Entries(items: seq<Json>): seq<string>
    decreases |items|
  {
    if items == [] then []
    else (if Usable(items[0]) then [Norm(items[0].s)] else []) + Entries(items[1..])
  }

  /** What one row contributes: `row.get("token", {})`, then
      `token.get("en", [])`, whose usable strings are normalised when it is
      a list and ignored otherwise. It raises exactly when the row, or its
      present `token`, is not a dict, and every string it gives is non-empty
      and normal. */
  function RowEnglish(row: Json): (r: Result<seq<string>, Crash>)
    ensures r.Success? <==> row.JObj? && HasDictToken(row.members)
    ensures r.Success? ==> AllNormal(r.value)
  {
    var token :- Get(row, "token", JObj([]));
    var en :- Get(token, "en", JArr([]));
    if en.JArr? then
      EntriesNormal(en.items);
      Success(Entries(en.items))
    else Success([])
  }

  /** The contributions of a list of items, in order, stopping at the
      first item that raises. */
  function Gather(xs: seq<Json>, f: Json -> Result<seq<string>, Crash>): Result<seq<string>, Crash>
    decreases |xs|
  {
    if xs == [] then Success([])
    else
      var head :- f(xs[0]);
      var tail :- Gather(xs[1..], f);
      Success(head + tail)
  }

  /** What one block contributes: every row of `block.get("mapping", [])`.
      A block that is not a dict raises, and every string it gives is
      non-empty and normal. */
  function BlockEnglish(block: Json): (r: Result<seq<string>, Crash>)
    ensures !block.JObj? ==> r.Failure?
    ensures r.Success? ==> AllNormal(r.value)
  {
    var mapping :- Get(block, "mapping", JArr([]));
    assert mapping == Mapping(block.members);
    var rows :- Iterate(mapping);
    GatherNormal(rows, RowEnglish);
    Gather(rows, RowEnglish)
  }

  /** `block.get("mapping", [])` for a dict block. */
  function Mapping(members: seq<(string, Json)>): Json {
    match Lookup(members, "mapping")
    case Some(m) => m
    case None => JArr([])
  }

  /** Every string the loop adds to `english`, in the order it adds them.
      A document that cannot be iterated raises, and every string collected
      is non-empty and normal. */
  function CollectEnglish(data: Json): (r: Result<seq<string>, Crash>)
    ensures (data.JNull? || data.JBool? || data.JNum?) ==> r.Failure?
    ensures r.Success? ==> AllNormal(r.value)
  {
    var blocks :- Iterate(data);
    GatherNormal(blocks, BlockEnglish);
    Gather(blocks, BlockEnglish)
  }

  /** Gathering the contributions of items that each give normal strings
      gives normal strings. */
  lemma {:induction false} GatherNormal(xs: seq<Json>, f: Json -> Result<seq<string>, Crash>)
    requires forall k :: 0 <= k < |xs| && f(xs[k]).Success? ==> AllNormal(f(xs[k]).value)
    ensures Gather(xs, f).Success? ==> AllNormal(Gather(xs, f).value)
    decreases |xs|
  {
    if xs != [] && Gather(xs, f).Success? {
      assert forall k :: 0 < k < |xs| ==> xs[1..][k - 1] == xs[k];
      GatherNormal(xs[1..], f);
      AllNormalAppend(f(xs[0]).value, Gather(xs[1..], f).value);
    }
  }

  /** An entry comes from a usable string of the list, normalised, and
      every usable string gives one. */
  lemma {:induction false} EntriesSpec(items: seq<Json>, x: string)
    ensures x in Entries(items) <==> exists k :: 0 <= k < |items| && Usable(items[k]) && x == Norm(items[k].s)
    decreases |items|
  {
    if items != [] {
      EntriesSpec(items[1..], x);
      if x in Entries(items[1..]) {
        var k :| 0 <= k < |items[1..]| && Usable(items[1..][k]) && x == Norm(items[1..][k].s);
        assert items[k + 1] == items[1..][k];
      }
      if exists k :: 0 <= k < |items| && Usable(items[k]) && x == Norm(items[k].s) {
        var k :| 0 <= k < |items| && Usable(items[k]) && x == Norm(items[k].s);
        if k > 0 {
          assert items[1..][k - 1] == items[k];
        }
      }
    }
  }

  /** Every entry is non-empty and in the shape `norm` produces. */
  lemma EntriesNormal(items: seq<Json>)
    ensures AllNormal(Entries(items))
  {
    forall x | x in Entries(items) ensures x != [] && IsNormal(x) {
      EntriesSpec(items, x);
      var k :| 0 <= k < |items| && Usable(items[k]) && x == Norm(items[k].s);
      NormEntry(items[k]);
    }
  }

  /** Every string of `xs` is non-empty and normal. */
  ghost predicate AllNormal(xs: seq<string>) {
    forall x :: x in xs ==> x != [] && IsNormal(x)
  }

  lemma AllNormalAppend(xs: seq<string>, ys: seq<string>)
    requires AllNormal(xs) && AllNormal(ys)
    ensures AllNormal(xs + ys)
  {
  }

  /** The entry a usable item gives is non-empty and normal. */
  lemma NormEntry(t: Json)
    requires Usable(t)
    ensures Norm(t.s) != [] && IsNormal(Norm(t.s))
  {
    NormShape(t.s);
    assert !All(t.s, IsSpace);
  }

  /** A gathering succeeds exactly when no item raises; its strings are
      those of the items. */
  lemma {:induction false} GatherSpec(xs: seq<Json>, f: Json -> Result<seq<string>, Crash>)
    ensures Gather(xs, f).Success? <==> forall k :: 0 <= k < |xs| ==> f(xs[k]).Success?
    ensures Gather(xs, f).Success? ==>
      forall x :: x in Gather(xs, f).value <==> exists k :: 0 <= k < |xs| && x in f(xs[k]).value
    decreases |xs|
  {
    if xs != [] {
      GatherSpec(xs[1..], f);
      assert forall k :: 0 < k < |xs| ==> xs[1..][k - 1] == xs[k];
      if Gather(xs, f).Success? {
        forall x | x in Gather(xs, f).value
          ensures exists k :: 0 <= k < |xs| && x in f(xs[k]).value
        {
          if x !in f(xs[0]).value {
            var k :| 0 <= k < |xs[1..]| && x in f(xs[1..][k]).value;
            assert x in f(xs[k + 1]).value;
          }
        }
      }
    }
  }

  /** The row's `token` is a dict, or absent and so defaulted to `{}`. */
  predicate HasDictToken(members: seq<(string, Json)>) {
    match Lookup(members, "token")
    case None => true
    case Some(t) => t.JObj?
  }

  /** The strings a row offers: the items of its token's `en` member when
      that is a list, and nothing otherwise. */
  function EnItems(members: seq<(string, Json)>): seq<Json>
    requires HasDictToken(members)
  {
    match Lookup(members, "token")
    case None => []
    case Some(t) =>
      match Lookup(t.members, "en")
      case Some(JArr(items)) => items
      case _ => []
  }

  /** A row raises exactly when it or its token is not a dict; otherwise
      its strings are the normalised usable strings it offers. */
  lemma RowEnglishSpec(row: Json, x: string)
    ensures RowEnglish(row).Success? <==> row.JObj? && HasDictToken(row.members)
    ensures RowEnglish(row).Success? ==>
      (x in RowEnglish(row).value <==>
        exists k :: 0 <= k < |EnItems(row.members)| && Usable(EnItems(row.members)[k]) && x == Norm(EnItems(row.members)[k].s))
  {
    if row.JObj? && HasDictToken(row.members) {
      EntriesSpec(EnItems(row.members), x);
    }
  }

  /** A block succeeds exactly when it is a dict, its `mapping` (default
      `[]`) can be iterated and no row raises; its strings are then exactly
      those of its rows. */
  lemma BlockEnglishSpec(block: Json, x: string)
    ensures BlockEnglish(block).Success? <==>
      && block.JObj?
      && Iterate(Mapping(block.members)).Success?
      && forall k :: 0 <= k < |Iterate(Mapping(block.members)).value| ==>
           RowEnglish(Iterate(Mapping(block.members)).value[k]).Success?
    ensures BlockEnglish(block).Success? ==>
      (x in BlockEnglish(block).value <==>
        exists k :: 0 <= k < |Iterate(Mapping(block.members)).value| &&
          x in RowEnglish(Iterate(Mapping(block.members)).value[k]).value)
  {
    if block.JObj? && Iterate(Mapping(block.members)).Success? {
      GatherSpec(Iterate(Mapping(block.members)).value, RowEnglish);
    }
  }

  /** The script's outcome on the whole document: it raises exactly when
      the document is not iterable, is a non-empty dict or string (whose
      keys or characters have no `get`), or some block raises; otherwise
      `english` holds exactly the strings of the blocks, each non-empty
      and normal. */
  lemma CollectSpec(data: Json)
    ensures (data.JNull? || data.JBool? || data.JNum?) ==> CollectEnglish(data).Failure?
    ensures data.JObj? ==> (CollectEnglish(data).Failure? <==> data.members != [])
    ensures data.JStr? ==> (CollectEnglish(data).Failure? <==> data.s != [])
    ensures data.JArr? ==>
      (CollectEnglish(data).Success? <==> forall k :: 0 <= k < |data.items| ==> BlockEnglish(data.items[k]).Success?)
    ensures data.JArr? && CollectEnglish(data).Success? ==>
      forall x :: x in CollectEnglish(data).value <==>
        exists k :: 0 <= k < |data.items| && x in BlockEnglish(data.items[k]).value
  {
    var blocks := Iterate(data);
    if blocks.Success? {
      GatherSpec(blocks.value, BlockEnglish);
      if data.JObj? && data.members != [] {
        assert data.members[0].0 in Keys(data.members);
        assert BlockEnglish(blocks.value[0]).Failure?;
      }
      if data.JStr? && data.s != [] {
        assert BlockEnglish(blocks.value[0]).Failure?;
      }
    }
  }
}

=== FILE: vocab_list.dfy ===
/** `english_list = sorted(english)`: Python's string order and the sorted,
    duplicate-free list of the collected vocabulary. */
module VocabList {
  import opened Wrappers
  import opened VocabNorm
  import opened VocabCollect

  /** Python's `a < b` on strings: code point by code point, a proper
      prefix coming first. No string is before itself. */
  predicate Less(a: string, b: string)
    ensures Less(a, b) ==> a != b
    ensures |a| < |b| && a == b[..|a|] ==> Less(a, b)
    decreases |a|
  {
    if a == [] then b != []
    else if b == [] then false
    else if a[0] != b[0] then a[0] < b[0]
    else
      assert |a| < |b| && a == b[..|a|] ==> a[1..] == b[1..][..|a| - 1];
      Less(a[1..], b[1..])
  }

  /** The textbook lexicographic order: `a` is a proper prefix of `b`, or
      the two agree up to a position where `a` has the smaller character. */
  ghost predicate LexBefore(a: string, b: string) {
    ProperPrefix(a, b) || SmallerAtDifference(a, b)
  }

  /** `a` is a proper prefix of `b`. */
  ghost predicate ProperPrefix(a: string, b: string) {
    |a| < |b| && a == b[..|a|]
  }

  /** `a` and `b` agree up to a position where `a` has the smaller
      character. */
  ghost predicate SmallerAtDifference(a: string, b: string) {
    exists k :: 0 <= k < |a| && k < |b| && a[..k] == b[..k] && a[k] < b[k]
  }

  /** `Less` is the lexicographic order. */
  lemma {:induction false} LessIsLexBefore(a: string, b: string)
    ensures Less(a, b) <==> LexBefore(a, b)
    decreases |a|
  {
    if a == [] {
      assert b != [] ==> a == b[..|a|];
    } else if b == [] {
    } else if a[0] != b[0] {
      if a[0] < b[0] {
        assert a[..0] == b[..0];
      }
    } else {
      LessIsLexBefore(a[1..], b[1..]);
      PrefixAfterHead(a, b);
      DifferenceAfterHead(a, b);
    }
  }

  /** Past an equal first character, being a proper prefix is decided by
      the rests. */
  lemma PrefixAfterHead(a: string, b: string)
    requires a != [] && b != [] && a[0] == b[0]
    ensures ProperPrefix(a, b) <==> ProperPrefix(a[1..], b[1..])
  {
    var a', b' := a[1..], b[1..];
    if |a| < |b| && a' == b'[..|a'|] {
      assert a == [a[0]] + a' && b[..|a|] == [b[0]] + b'[..|a'|];
    }
    if |a| < |b| && a == b[..|a|] {
      assert a' == b'[..|a'|];
    }
  }

  /** Past an equal first character, the first difference is the rests'
      first difference, one position on. */
  lemma DifferenceAfterHead(a: string, b: string)
    requires a != [] && b != [] && a[0] == b[0]
    ensures SmallerAtDifference(a, b) <==> SmallerAtDifference(a[1..], b[1..])
  {
    if SmallerAtDifference(a, b) {
      var k :| 0 <= k < |a| && k < |b| && a[..k] == b[..k] && a[k] < b[k];
      DifferenceDown(a, b, k);
    }
    if SmallerAtDifference(a[1..], b[1..]) {
      var k :| 0 <= k < |a[1..]| && k < |b[1..]| && a[1..][..k] == b[1..][..k] && a[1..][k] < b[1..][k];
      DifferenceUp(a, b, k);
    }
  }

  /** A first difference past the shared head is one for the rests. */
  lemma DifferenceDown(a: string, b: string, k: nat)
    requires a != [] && b != [] && a[0] == b[0]
    requires k < |a| && k < |b| && a[..k] == b[..k] && a[k] < b[k]
    ensures SmallerAtDifference(a[1..], b[1..])
  {
    var a', b' := a[1..], b[1..];
    assert k > 0;
    assert a'[..k - 1] == a[..k][1..];
    assert b'[..k - 1] == b[..k][1..];
    assert a'[k - 1] == a[k] && b'[k - 1] == b[k];
  }

  /** A first difference of the rests is one for the whole strings. */
  lemma DifferenceUp(a: string, b: string, k: nat)
    requires a != [] && b != [] && a[0] == b[0]
    requires k < |a| - 1 && k < |b| - 1 && a[1..][..k] == b[1..][..k] && a[1..][k] < b[1..][k]
    ensures SmallerAtDifference(a, b)
  {
    var a', b' := a[1..], b[1..];
    assert a[..k + 1] == [a[0]] + a'[..k];
    assert b[..k + 1] == [b[0]] + b'[..k];
    assert a[k + 1] == a'[k] && b[k + 1] == b'[k];
  }

  lemma {:induction false} LessTransitive(a: string, b: string, c: string)
    requires Less(a, b) && Less(b, c)
    ensures Less(a, c)
    decreases |a|
  {
    if a != [] && b != [] && c != [] && a[0] == b[0] && b[0] == c[0] {
      LessTransitive(a[1..], b[1..], c[1..]);
    }
  }

  /** Any two different strings are ordered one way or the other. */
  lemma {:induction false} LessTotal(a: string, b: string)
    requires a != b
    ensures Less(a, b) || Less(b, a)
    decreases |a|
  {
    if a != [] && b != [] && a[0] == b[0] {
      assert a == [a[0]] + a[1..] && b == [b[0]] + b[1..];
      LessTotal(a[1..], b[1..]);
    }
  }

  lemma {:induction false} LessAsymmetric(a: string, b: string)
    requires Less(a, b)
    ensures !Less(b, a)
    decreases |a|
  {
    if a != [] && b != [] && a[0] == b[0] {
      LessAsymmetric(a[1..], b[1..]);
    }
  }

  /** Ascending without repeats. */
  ghost predicate StrictlySorted(xs: seq<string>) {
    forall i, j :: 0 <= i < j < |xs| ==> Less(xs[i], xs[j])
  }

  /** Adds `x` to a strictly sorted list, keeping it strictly sorted; a
      string already present is not added again. */
  function Insert(xs: seq<string>, x: string): (r: seq<string>)
    requires StrictlySorted(xs)
    ensures StrictlySorted(r)
    ensures forall y :: y in r <==> y in xs || y == x
    ensures |r| == if x in xs then |xs| else |xs| + 1
    decreases |xs|
  {
    if xs == [] then [x]
    else if x == xs[0] then xs
    else if Less(x, xs[0]) then
      InsertFront(xs, x);
      [x] + xs
    else
      LessTotal(x, xs[0]);
      var rest := Insert(xs[1..], x);
      InsertBehind(xs, x, rest);
      [xs[0]] + rest
  }

  lemma InsertFront(xs: seq<string>, x: string)
    requires StrictlySorted(xs) && xs != [] && Less(x, xs[0])
    ensures StrictlySorted([x] + xs)
    ensures x !in xs
  {
    if x in xs {
      var i :| 0 <= i < |xs| && xs[i] == x;
      if i == 0 {
      } else {
        LessAsymmetric(x, xs[0]);
      }
    }
    forall j | 1 <= j < |xs| + 1 ensures Less(x, ([x] + xs)[j]) {
      if j > 1 {
        LessTransitive(x, xs[0], xs[j - 1]);
      }
    }
  }

  lemma InsertBehind(xs: seq<string>, x: string, rest: seq<string>)
    requires StrictlySorted(xs) && xs != [] && Less(xs[0], x)
    requires StrictlySorted(rest) && forall y :: y in rest <==> y in xs[1..] || y == x
    ensures StrictlySorted([xs[0]] + rest)
  {
    forall j | 0 <= j < |rest| ensures Less(xs[0], rest[j]) {
      assert rest[j] in rest;
      if rest[j] != x {
        var i :| 0 <= i < |xs[1..]| && xs[1..][i] == rest[j];
        assert xs[i + 1] == rest[j];
      }
    }
  }

  /** A strictly sorted list is fixed by its elements: `sorted` of a set
      has one possible result. */
  lemma {:induction false} SortedUnique(a: seq<string>, b: seq<string>)
    requires StrictlySorted(a) && StrictlySorted(b)
    requires forall y :: y in a <==> y in b
    ensures a == b
    decreases |a|
  {
    assert a == [] <==> b == [] by {
      assert a != [] ==> a[0] in b;
      assert b != [] ==> b[0] in a;
    }
    if a != [] && b != [] {
      assert a[0] == b[0] by {
        if a[0] != b[0] {
          assert a[0] in b && b[0] in a;
          var i :| 0 <= i < |b| && b[i] == a[0];
          var j :| 0 <= j < |a| && a[j] == b[0];
          assert i > 0 && j > 0;
          LessAsymmetric(a[0], a[j]);
        }
      }
      forall y ensures y in a[1..] <==> y in b[1..] {
        FirstIsLeast(a, y);
        FirstIsLeast(b, y);
      }
      SortedUnique(a[1..], b[1..]);
    }
  }

  /** In a strictly sorted list, the tail holds every element but the
      first. */
  lemma FirstIsLeast(a: seq<string>, y: string)
    requires StrictlySorted(a) && a != []
    ensures y in a[1..] <==> y in a && y != a[0]
  {
    if y in a[1..] {
      var i :| 0 <= i < |a[1..]| && a[1..][i] == y;
      assert Less(a[0], a[i + 1]);
      if y == a[0] {
      }
    }
    if y in a && y != a[0] {
      var i :| 0 <= i < |a| && a[i] == y;
      assert a[1..][i - 1] == y;
    }
  }

  /** `sorted(s)` for a set of strings: the elements of `s` in ascending
      order, each once. */
  method SortedList(s: set<string>) returns (r: seq<string>)
    ensures StrictlySorted(r)
    ensures forall y :: y in r <==> y in s
    ensures |r| == |s|
  {
    r := [];
    var rest := s;
    while rest != {}
      invariant rest <= s
      invariant StrictlySorted(r)
      invariant forall y :: y in r <==> y in s && y !in rest
      invariant |r| + |rest| == |s|
      decreases |rest|
    {
      var x :| x in rest;
      r := Insert(r, x);
      rest := rest - {x};
    }
  }

  /** The script end to end on a parsed document: it raises exactly when
      the collection raises; otherwise the list is sorted, without repeats,
      holds exactly the collected strings, and every entry is non-empty
      and normal. */
  method EnglishList(data: Json) returns (r: Result<seq<string>, Crash>)
    ensures r.Failure? <==> CollectEnglish(data).Failure?
    ensures r.Success? ==> StrictlySorted(r.value)
    ensures r.Success? ==> forall y :: y in r.value <==> y in CollectEnglish(data).value
    ensures r.Success? ==> forall y :: y in r.value ==> y != [] && IsNormal(y)
  {
    var collected := CollectEnglish(data);
    if collected.Failure? {
      return Failure(collected.error);
    }
    var english := set y | y in collected.value;
    var sorted := SortedList(english);
    r := Success(sorted);
  }
}

=== FILE: vocab_norm.dfy ===
/** `norm` of the vocabulary tool: strip, lower-case, and replace every run
    of whitespace by one space. */
module VocabNorm {
  import opened Chars
  import opened Strings

  /** `norm(s)`: `s.strip().lower()`, then whitespace runs collapsed. It is
      empty exactly when `s` is all whitespace, the strings the vocabulary
      tool's `t.strip()` test turns away. */
  function Norm(s: string): (r: string)
    ensures r == [] <==> All(s, IsSpace)
  {
    Collapse(LowerStr(Strip(s)))
  }

  /** A string in the shape `norm` produces: lower-case, no whitespace at
      either end, and inside only single plain spaces. */
  ghost predicate IsNormal(r: string) {
    && IsLowerCase(r)
    && NoEdgeSpace(r)
    && (forall k :: 0 <= k < |r| && IsSpace(r[k]) ==> r[k] == ' ')
    && (forall j, k :: 0 <= j < k < |r| && k == j + 1 && IsSpace(r[j]) ==> !IsSpace(r[k]))
  }

  /** `norm` is the single-space join of the words of the lower-cased
      string: `" ".join(s.lower().split())`. */
  lemma NormIsJoinOfWords(s: string)
    ensures Norm(s) == Join(" ", Split(LowerStr(s)))
  {
    var low := LowerStr(s);
    LowerStrip(s);
    CollapseIsJoin(Strip(low));
    SplitStrip(low);
  }

  /** Joining non-empty lower-case words with single spaces gives a normal
      string. */
  lemma {:induction false} JoinIsNormal(ts: seq<string>)
    requires forall k :: 0 <= k < |ts| ==> ts[k] != [] && HasNoSpace(ts[k]) && IsLowerCase(ts[k])
    ensures IsNormal(Join(" ", ts))
    decreases |ts|
  {
    if |ts| == 1 {
      assert Join(" ", ts) == ts[0];
    } else if |ts| > 1 {
      var t := ts[0];
      var rest := Join(" ", ts[1..]);
      JoinIsNormal(ts[1..]);
      var r := Join(" ", ts);
      assert r == t + " " + rest;
      assert rest != [] by {
        JoinHeadPrefix(ts[1..]);
      }
      forall k | 0 <= k < |r| ensures !IsUpper(r[k]) && (IsSpace(r[k]) ==> r[k] == ' ') && (IsSpace(r[k]) ==> k > |t| || k == |t|) {
        if k < |t| {
          assert r[k] == t[k];
        } else if k > |t| {
          assert r[k] == rest[k - |t| - 1];
        }
      }
      forall j, k | 0 <= j < k < |r| && k == j + 1 && IsSpace(r[j]) ensures !IsSpace(r[k]) {
        if j == |t| {
          assert r[k] == rest[0];
        } else {
          assert r[j] == rest[j - |t| - 1];
          assert r[k] == rest[k - |t| - 1];
        }
      }
      assert r[0] == t[0];
      assert r[|r| - 1] == rest[|rest| - 1];
    }
  }

  /** `norm` always yields a normal string, and yields the empty string
      exactly for all-whitespace input. */
  lemma NormShape(s: string)
    ensures IsNormal(Norm(s))
    ensures Norm(s) == [] <==> All(s, IsSpace)
  {
    NormIsJoinOfWords(s);
    var ts := Split(LowerStr(s));
    forall k | 0 <= k < |ts| ensures ts[k] != [] && HasNoSpace(ts[k]) && IsLowerCase(ts[k]) {
      assert ts[k] in ts;
      forall i | 0 <= i < |ts[k]| ensures !IsUpper(ts[k][i]) {
        assert ts[k][i] in ts[k];
      }
    }
    JoinIsNormal(ts);
  }

  /** A normal string is its own `norm`. */
  lemma NormOfNormal(r: string)
    requires IsNormal(r)
    ensures Norm(r) == r
  {
    LowerStrOfLowerCase(r);
    NormalCollapse(r);
  }

  /** Collapsing leaves a string with only single plain spaces unchanged. */
  lemma {:induction false} NormalCollapse(r: string)
    requires forall k :: 0 <= k < |r| && IsSpace(r[k]) ==> r[k] == ' '
    requires forall j, k :: 0 <= j < k < |r| && k == j + 1 && IsSpace(r[j]) ==> !IsSpace(r[k])
    ensures Collapse(r) == r
    decreases |r|
  {
    if r != [] {
      if |r| > 1 {
        assert IsSpace(r[0]) ==> !IsSpace(r[1]);
      }
      NormalCollapse(r[1..]);
      assert r == [r[0]] + r[1..];
    }
  }

  /** `norm` is idempotent. */
  lemma NormIdempotent(s: string)
    ensures Norm(Norm(s)) == Norm(s)
  {
    NormShape(s);
    NormOfNormal(Norm(s));
  }
}

=== FILE: wrappers.dfy ===
/** Wrappers used in place of the source's `None` returns and raised
    exceptions. `Result` is failure-compatible, so `:-` propagates the first
    error the way an uncaught exception ends the computation. */
module Wrappers {

  /** A value that may be missing. */
  datatype Option<+T> = None | Some(value: T)

  /** A value, or the error that stopped its computation. */
  datatype Result<+R, +E> = Success(value: R) | Failure(error: E) {
    predicate IsFailure() {
      Failure?
    }

    function PropagateFailure<U>(): Result<U, E>
      requires Failure?
    {
      Failure(this.error)
    }

    function Extract(): R
      requires Success?
    {
      value
    }
  }
}
